=== FILE: README.md ===
# Portfolio blog rules, modelled in Dafny

This project models the small pure rules inside a personal portfolio and blog
site. The browser inputs become explicit parameters: host name, search
parameters, hash, element tops, fetch outcomes and storage. Each rule is then a
total function or a small state transition over immutable values:

- `BlogData`: the blog item normaliser (`processBlogItems`) and the post id
  resolver (`getBlogIdFromItem`).
- `UrlQuery`: the subset of `URLSearchParams` the blog view uses. It covers
  parsing from a string, `get`, `set` and `delete` (WHATWG URL Standard,
  section 6.2).
- `BlogView`: the blog section's list/post view machine. It covers the URL
  id extractor, the URL-check effect, popstate, select, back and the render
  guard. It also mirrors the selection into the `blogId` search parameter and
  the `current_blog_id` storage key.
- `BlogList`: the cards of the list and the click path to `onBlogSelect`.
- `BlogPost`: the post loader's path-selection policy over a fetch oracle,
  the "not found" screen and the localised field fallbacks.
- `TableOfContents`: the active-section scan, the sticky flag and the entry
  list.
- `AssetHelper`: base URL, asset URL, GitHub Pages detection and SPA URL
  builders. The host name is a parameter.
- `SidebarState`: the per-section sidebar map with its `default` entry,
  toggling, setting, the stored copy and the emitted events.
- `Navbar`, `PortfolioFilter`, `NavHeader`: the static-page classifiers.

`Wrappers` (an `Option` type) and `Strings` (prefix, suffix, substring, ASCII
case and trimming) are shared helpers.

Three facts about the code shape the model:

- `Blog.jsx` keeps the selection in the `blogId` search parameter and in the
  `current_blog_id` storage key. The `#blog` hash is only ever read, and it
  re-reads the URL on every section change without any delay.
- The normaliser can attach a `blogData` without an id, so a processed item
  need not resolve to an id (`BlogData.ProcessedItemMayNotResolve`).
- The table-of-contents scan picks the last qualifying section in list order,
  whatever the offsets of the sections before it
  (`TableOfContents.OrderNotOffset`).

## Model

| member | source | states |
|---|---|---|
| AssetHelper.BaseUrl | src/hooks/assetHelper.js:11-21 | The base is empty exactly on `localhost` and `127.0.0.1`, and `/portfolio` on every other host |
| AssetHelper.IsGitHubPages | src/hooks/assetHelper.js:53-56 | The GitHub Pages test holds exactly when the base URL is non-empty |
| AssetHelper.AssetUrl | src/hooks/assetHelper.js:29-46 | An empty path gives `''`; an `http://`/`https://` path is returned unchanged; any other result starts with the base, ends with the path, and has exactly the slash-prefixed path after the base |
| AssetHelper.AssetUrlIdempotentOnDevHost | src/hooks/assetHelper.js:29-46 | On a development host, applying `getAssetUrl` twice equals applying it once |
| AssetHelper.AssetUrlReprefixesOnPages | src/hooks/assetHelper.js:39-42 | On any other host, applying it again puts `/portfolio` in front of the previous result |
| AssetHelper.StripOneSlash | src/hooks/assetHelper.js:67 | At most one leading `/` is removed |
| AssetHelper.SpaUrl | src/hooks/assetHelper.js:65-83 | The URL starts with base + `/?/` + cleaned path, which is all of it without params; with params a `?` follows, and when the encoder escapes `&` and `=` the part from that `?` parses back to exactly the encoded entries, in entry order |
| AssetHelper.SpaUrlJoinsPairs | src/hooks/assetHelper.js:73-79 | With params, the text after the `?` is the encoded `key=value` pairs joined by `&` |
| AssetHelper.QueryParsesBack | src/hooks/assetHelper.js:73-78 | With an encoder that escapes `&` and `=`, parsing `?` + the joined `key=value` pairs yields the encoded entries in order |
| AssetHelper.EncodedParams | src/hooks/assetHelper.js:74-75 | Each entry becomes the pair of its encoded key and encoded value, in entry order |
| AssetHelper.QueryStringAppend | src/hooks/assetHelper.js:73-79 | Pairs are joined in entry order: one more entry appends `&key=value` |
| AssetHelper.SingleParamSpaUrl | src/hooks/assetHelper.js:73-80 | A single parameter yields exactly `?encode(key)=encode(value)` |
| UrlQuery.Get | src/components/articles/Blog.jsx:37-38 | `get` returns the value of the first pair with the name, and nothing exactly when no pair has it |
| UrlQuery.Delete | src/components/articles/Blog.jsx:100-101 | `delete` leaves no pair with the name and changes nothing when there was none |
| UrlQuery.DeleteCounts | src/components/articles/Blog.jsx:100-101 | Every pair of another name survives `delete` exactly as often as it occurred, and no pair of the name does |
| UrlQuery.DeleteConcat | src/components/articles/Blog.jsx:100-101 | `delete` works pair by pair: on a concatenation it is the concatenation of the results, so the surviving pairs keep their order |
| UrlQuery.Set | src/components/articles/Blog.jsx:84-85 | After `set`, `get` returns the new value; an absent name is appended at the end; a present name's first pair is replaced in place (see `UrlQuery.SetReplacesFirstInPlace`) |
| UrlQuery.SetReplacesFirstInPlace | src/components/articles/Blog.jsx:84-85 | When the name is present, `set` keeps every pair before its first occurrence, puts the new pair in that position and drops the later pairs of that name, keeping the other later pairs |
| UrlQuery.SetKeepsOthers | src/components/articles/Blog.jsx:84-85 | `set` does not change the lookup of any other name |
| UrlQuery.DeleteKeepsOthers | src/components/articles/Blog.jsx:100-101 | `delete` does not change the lookup of any other name |
| UrlQuery.DeleteAfterSet | src/components/articles/Blog.jsx:84-104 | Deleting a name after setting it equals deleting it outright |
| UrlQuery.Parse | src/components/articles/Blog.jsx:45-47 | No parsed name or value contains `&`; its round-trip partner is `UrlQuery.ParseSerialize` |
| UrlQuery.ParseSerialize | src/components/articles/Blog.jsx:45-47 | Parsing `?` followed by the `&`-joined `name=value` texts of a list (names without `=` or `&`, values without `&`) gives that list back: one `?` is stripped, the text is split on `&`, and each piece at its first `=` |
| Strings.SplitJoin | src/hooks/assetHelper.js:74-76 | Splitting a `join` on a separator that no part contains gives the parts back |
| Strings.Trim | assets/js/components/navbar.js:39 | `trim` gives text with no white space at either end; that it is an infix with only white space cut away is `Strings.TrimIsInfix` |
| Strings.TrimIsInfix | assets/js/components/navbar.js:39 | The trimmed text is the infix of the input after its leading white space, and everything cut away on either side is white space |
| UrlQuery.ParsePair | src/components/articles/Blog.jsx:45-47 | A piece splits at its first `=`; without `=` the value is empty |
| UrlQuery.ParseSinglePair | src/components/articles/Blog.jsx:45-47 | `?name=value`, and `name=value` when the name does not start with `?`, parse to that single pair |
| BlogData.IdMap | src/hooks/blogDataHelper.js:25-33 | A key is in the id map exactly when some raw entry with a truthy id and a `blogData` has that id |
| BlogData.IdMapLastWins | src/hooks/blogDataHelper.js:29-33 | The map holds the `blogData` of the last such entry: later duplicates overwrite earlier ones |
| BlogData.NonEnteringRawIgnored | src/hooks/blogDataHelper.js:30-32 | A raw entry without a truthy id or without `blogData` does not change the map |
| BlogData.ProcessItem | src/hooks/blogDataHelper.js:39-64 | An item with a truthy `blogData.id` is returned as is; otherwise the map entry is attached, else the item's own `_rawData.blogData`, else it is unchanged; only `blogData` ever differs |
| BlogData.ProcessBlogItems | src/hooks/blogDataHelper.js:14-65 | Missing or empty input gives `[]`; otherwise each output item, at its input's position, is the per-item rule applied to the input item with the map built from the wrapper |
| BlogData.ProcessedBlogDataSource | src/hooks/blogDataHelper.js:25-64 | In order of precedence: a valid item is kept; else, when a wrapper raw entry enters under the item's key, the item takes the `blogData` of the last such entry; else its own `_rawData.blogData` when present; else it is unchanged |
| BlogData.ProcessUsesLastDuplicate | src/hooks/blogDataHelper.js:46-51 | An item without valid `blogData` gets the `blogData` of the last matching raw entry |
| BlogData.FindRaw | src/hooks/blogDataHelper.js:91-93 | `find` returns the first raw entry whose id is strictly equal to the item's, and nothing exactly when there is none |
| BlogData.BlogIdFromItem | src/hooks/blogDataHelper.js:73-102 | A null item gives null; a resolved id is never empty; an item's own truthy `blogData.id` takes precedence |
| BlogData.ResolverPrecedence | src/hooks/blogDataHelper.js:81-101 | `_rawData.blogData.id` is used only when the item's own id fails; with no wrapper raw items and neither id, the result is null |
| BlogData.BlogIdComesFromAKnownPlace | src/hooks/blogDataHelper.js:76-98 | A resolved id is the item's `blogData.id`, its `_rawData.blogData.id`, or the `blogData.id` of the first wrapper raw entry with a strictly equal id |
| BlogData.WrapperLookupUsesFirstMatch | src/hooks/blogDataHelper.js:86-101 | When neither of the item's own ids is truthy, the first wrapper raw entry with a strictly equal id decides: its truthy `blogData.id`, or null |
| BlogData.WrapperLookupWithoutMatch | src/hooks/blogDataHelper.js:86-101 | Without a wrapper raw entry of equal id, and neither own id truthy, the result is null |
| BlogData.ProcessedItemResolves | src/hooks/blogDataHelper.js:77-79 | A processed item whose attached `blogData` has a truthy id resolves to that id |
| BlogData.ProcessedItemMayNotResolve | src/hooks/blogDataHelper.js:30 | The map only asks for `blogData`, so a processed item can carry an id-less `blogData` and resolve to nothing |
| BlogView.HashQuery | src/components/articles/Blog.jsx:45-46 | The hash is read whole when it has no `?`; otherwise the result is a suffix starting with `?` and no `?` comes before it, so it starts at the first `?` (`BlogView.FirstQuestionMark`) |
| BlogView.FirstQuestionMark | src/components/articles/Blog.jsx:45-46 | When the hash is a `?`-free head followed by a `?`-led tail, the query part is exactly that tail |
| BlogView.HashBlogId | src/components/articles/Blog.jsx:44-48 | A hash without `blogId=` is never consulted |
| BlogView.Extract | src/components/articles/Blog.jsx:32-57 | A truthy `blogId` search parameter wins; otherwise the hash decides; `isPostView` holds exactly when the id is a non-empty string |
| BlogView.EmptySearchIdFallsThrough | src/components/articles/Blog.jsx:51-55 | `?blogId=` with an empty value counts as absent |
| BlogView.HashWithQueryYieldsId | src/components/articles/Blog.jsx:44-48 | A hash `#prefix?blogId=X` yields id `X` when the search part has none |
| BlogView.BareHashYieldsNothing | src/components/articles/Blog.jsx:45-47 | A hash `#blogId=X` yields the key `#blogId` and so no id |
| BlogView.Initial | src/components/articles/Blog.jsx:18-19 | The component starts in list view with nothing selected, no pushed history, and the given location and storage |
| BlogView.Sync | src/components/articles/Blog.jsx:60-74 | The URL check sets post view with the extracted id, or list view with none; the storage key follows the selection |
| BlogView.Popstate | src/components/articles/Blog.jsx:109-121 | After back/forward the view is `post` exactly when the new location yields an id |
| BlogView.SyncIdempotent | src/components/articles/Blog.jsx:60-74 | Re-deriving from the same URL twice is the same as once |
| BlogView.SyncIgnoresHeldView | src/components/articles/Blog.jsx:109-121 | The re-derived state does not depend on the view held before |
| BlogView.Select | src/components/articles/Blog.jsx:77-92 | Selecting sets post view with the id, sets the `blogId` search parameter, keeps the hash, pushes the new location and stores the id |
| BlogView.Back | src/components/articles/Blog.jsx:95-105 | Going back sets list view, removes every `blogId` search parameter, keeps the hash and clears the storage key |
| BlogView.SelectThenExtract | src/components/articles/Blog.jsx:84-88 | After selecting a non-empty id, re-reading the URL yields that id, and a URL check changes nothing |
| BlogView.SelectKeepsOtherParams | src/components/articles/Blog.jsx:84-85 | Selecting keeps every other name's lookup, and with the `blogId` pairs set aside the list of pairs is the same as before |
| BlogView.BackKeepsOtherParams | src/components/articles/Blog.jsx:100-101 | Going back keeps every other name's lookup and every pair of another name as often as it occurred; the new list is the old one with only the `blogId` pairs removed |
| BlogView.SelectBackRoundTrip | src/components/articles/Blog.jsx:84-104 | Select then back restores the location when it had no `blogId` before |
| BlogView.Render | src/components/articles/Blog.jsx:134-153 | The post page is rendered only in post view, for the selected non-empty id |
| BlogView.RunKeepsInvariant | src/components/articles/Blog.jsx:60-134 | After mount and any event sequence, `post` view holds exactly when an id is selected, storage mirrors the selection, and a rendered post is the selected one |
| BlogList.Cards | src/components/articles/BlogList.jsx:17-61 | A missing or empty list renders nothing; otherwise there is one card per item, in order, keyed by the item id |
| BlogList.BlogClick | src/components/articles/BlogList.jsx:21-29 | `onBlogSelect` is called once exactly when the id is truthy, and never with a falsy id |
| BlogList.CardClick | src/components/articles/BlogList.jsx:31-42 | A card click calls `onBlogSelect` once with the resolved id, and not at all when none resolves |
| BlogList.ClickCard | src/components/articles/BlogList.jsx:37-41 | An unresolvable card leaves the blog state unchanged |
| BlogList.ClickOpensResolvedPost | src/components/articles/BlogList.jsx:31-38 | Clicking a resolvable card renders exactly that post, and the URL reads back the same id |
| BlogPost.PrimaryPath | src/components/blogpost/BlogPost.jsx:50 | The primary request is the base URL followed by `/data/blog-posts/<id>.json` |
| BlogPost.FallbackPaths | src/components/blogpost/BlogPost.jsx:92-96 | There are three fallback path variations |
| BlogPost.FirstSuccess | src/components/blogpost/BlogPost.jsx:99-116 | Paths are requested in order; the first answer wins and no later path is requested; all are tried when none answers |
| BlogPost.Load | src/components/blogpost/BlogPost.jsx:44-84 | The primary path is requested first; its success makes no other request; without GitHub Pages nothing else is requested and a failed primary keeps the previous post; no post is shown only if none was held |
| BlogPost.FallbackFirstWins | src/components/blogpost/BlogPost.jsx:68-109 | After a failed primary on GitHub Pages, the first answering variation's post is shown, after exactly the requests up to it |
| BlogPost.AllFailKeepsPrevious | src/components/blogpost/BlogPost.jsx:68-80 | When every request fails, the post held before stays |
| BlogPost.OnBlogId | src/components/blogpost/BlogPost.jsx:35-42 | A falsy id attempts nothing; a truthy one requests the primary path and ends loading |
| BlogPost.FailedReloadShowsOldPost | src/components/blogpost/BlogPost.jsx:44-80 | A failed load for a new id leaves the old post in place |
| BlogPost.Localized | src/components/blogpost/BlogPost.jsx:177-178 | The language's non-empty string wins; else the non-empty English string; else the fallback |
| BlogPost.EmptyLocalizedFallsToEnglish | src/components/blogpost/BlogPost.jsx:177 | An empty localised string falls through to English |
| BlogPost.LocalizedContent | src/components/blogpost/BlogPost.jsx:184 | The language's content object wins; else the English one; there is none only when both are missing |
| BlogPost.ImageSrc | src/components/blogpost/BlogPost.jsx:259 | An `http` image is used as is; another non-empty path gives a URL that starts with the base URL and ends with the path; that it is exactly the base URL and the slash-prefixed path is `BlogPost.ImageSrcIsAssetUrl` |
| BlogPost.ImageSrcIsAssetUrl | src/components/blogpost/BlogPost.jsx:259 | A non-empty image path that does not start with `http` becomes exactly the base URL followed by the slash-prefixed path, as `getAssetUrl` builds it |
| BlogPost.Render | src/components/blogpost/BlogPost.jsx:142-184 | The spinner shows exactly while loading, "not found" exactly when no post is held, and an article has a non-empty title and its tags or `[]` |
| BlogPost.AllFailShowsNotFound | src/components/blogpost/BlogPost.jsx:158-175 | When every request fails on a fresh component, the "not found" screen is rendered |
| TableOfContents.LastIndex | src/components/blogpost/TableOfContents.jsx:25-32 | The chosen position is the last in list order whose section has an element with top at most 100, or -1 when there is none |
| TableOfContents.LastQualifying | src/components/blogpost/TableOfContents.jsx:25-34 | The active id is `''` exactly when no section with an element has top at most 100; otherwise it is a qualifying id of the list |
| TableOfContents.WithElements | src/components/blogpost/TableOfContents.jsx:20-23 | Only ids with an element survive the filter |
| TableOfContents.WithElementsKeepsAll | src/components/blogpost/TableOfContents.jsx:20-23 | Every id that has an element survives the filter |
| TableOfContents.WithElementsConcat | src/components/blogpost/TableOfContents.jsx:20-23 | The filter works id by id: on a concatenation it is the concatenation of the results, so the kept ids stay in list order |
| TableOfContents.FilterKeepsChoice | src/components/blogpost/TableOfContents.jsx:20-32 | Dropping sections without an element does not change the choice |
| TableOfContents.ActiveSection | src/components/blogpost/TableOfContents.jsx:18-34 | Filtering, then scanning backwards and stopping at the first hit, computes the reference choice |
| TableOfContents.ScanBack | src/components/blogpost/TableOfContents.jsx:25-32 | Over ids that all have an element, walking back from the end and stopping at the first top at most 100 yields the reference choice |
| TableOfContents.ActiveIsAnId | src/components/blogpost/TableOfContents.jsx:25-34 | The active section is `''` or one of the given ids |
| TableOfContents.OrderNotOffset | src/components/blogpost/TableOfContents.jsx:26-31 | Tops `[150, 80, 30]` select the third id; the choice follows list order, not offset size |
| TableOfContents.ThresholdInclusive | src/components/blogpost/TableOfContents.jsx:28 | A top of exactly 100 qualifies and 101 does not |
| TableOfContents.Sticky | src/components/blogpost/TableOfContents.jsx:13-17 | With a sidebar, sticky holds exactly when its top is at most 20; without one, the flag is unchanged |
| TableOfContents.Entries | src/components/blogpost/TableOfContents.jsx:53-73 | No sections render nothing; otherwise one entry per section, in order, active exactly when its id is the active section |
| TableOfContents.AtMostOneActive | src/components/blogpost/TableOfContents.jsx:67 | With distinct ids, at most one entry is highlighted |
| SidebarState.Effective | src/providers/SidebarStateProvider.jsx:32-34 | A section's own entry applies when defined, else the `default` entry |
| SidebarState.Mount | src/providers/SidebarStateProvider.jsx:13-24 | The map is the stored one or `{blog: false, default: true}`, the flag starts true, and the state starts valid |
| SidebarState.Refresh | src/providers/SidebarStateProvider.jsx:29-43 | With a current section, the flag becomes its effective state and that value is dispatched; with none, nothing changes |
| SidebarState.ChangeSection | src/providers/SidebarStateProvider.jsx:29-43 | A change to a falsy section changes nothing but the section; validity is kept |
| SidebarState.Toggle | src/providers/SidebarStateProvider.jsx:46-64 | The current section is kept. With no current section nothing changes; otherwise the current key becomes the flipped flag, no other key changes, the store is updated, and the new flag is dispatched |
| SidebarState.SetForSection | src/providers/SidebarStateProvider.jsx:67-86 | The current section is kept. A falsy section changes nothing; otherwise only that key changes, the store is updated, and the flag follows when it is the current section |
| SidebarState.SetOtherSectionKeepsExpanded | src/providers/SidebarStateProvider.jsx:67-86 | Setting another section keeps the flag, unless that section is `default` and the current section has no entry |
| SidebarState.SetDefaultMovesCurrent | src/providers/SidebarStateProvider.jsx:29-43 | Setting `default` moves the flag of a current section without an entry, through the re-run effect |
| SidebarState.ToggleTwiceRestores | src/providers/SidebarStateProvider.jsx:46-64 | Two toggles restore the flag and the section's effective state |
| SidebarState.ChangesAreAnnounced | src/providers/SidebarStateProvider.jsx:36-41 | Every operation that changes the flag dispatches an event carrying the new value |
| SidebarState.RunOpsValid | src/providers/SidebarStateProvider.jsx:29-86 | Any operation sequence keeps the flag in sync with the current section, the stored copy equal to the map, and the last event equal to the flag |
| Navbar.DetectPage | assets/js/components/navbar.js:26-33 | The page is the first of `resume`, `portfolio`, `blog`, `contact` that the pathname contains, and `about` exactly when it contains none |
| Navbar.Run | assets/js/components/navbar.js:11-52 | No links change nothing; otherwise a link is active exactly when its trimmed, lower-cased text equals the detected page |
| Navbar.RunIdempotent | assets/js/components/navbar.js:38-52 | Running twice gives the same marks as once |
| Navbar.RunIgnoresPreviousMarks | assets/js/components/navbar.js:38-52 | The marks do not depend on which links were active before |
| Navbar.PrecedenceExample | assets/js/components/navbar.js:29-33 | `/blog/resume.html` is the resume page and `/index.html` is the about page |
| PortfolioFilter.FilterFunc | assets/js/pages/portfolio.js:11-19 | `all` activates every item; any other value activates exactly the items whose category equals it |
| PortfolioFilter.FilterIdempotent | assets/js/pages/portfolio.js:11-19 | Filtering twice with one value equals filtering once |
| PortfolioFilter.FilterIgnoresPreviousFlags | assets/js/pages/portfolio.js:11-19 | The outcome does not depend on the previous active flags |
| PortfolioFilter.ClickValue | assets/js/pages/portfolio.js:9-40 | With no items nothing happens; a click keeps every item and its category and activates exactly `all` or the items whose category is the clicked text lower-cased |
| PortfolioFilter.UpperCaseCategoryOnlyShownByAll | assets/js/pages/portfolio.js:13-38 | A category holding an upper-case letter is shown only by `all` |
| PortfolioFilter.ClickButtonAsWritten | assets/js/pages/portfolio.js:35-44 | Items are filtered; while the last clicked is the whole button list, the button marks never change |
| PortfolioFilter.AsWrittenHighlightNeverMoves | assets/js/pages/portfolio.js:35-44 | As written, no click sequence ever moves the button highlight |
| PortfolioFilter.AsWrittenCounterexample | assets/js/pages/portfolio.js:35-41 | Clicking the second button leaves the first one highlighted |
| PortfolioFilter.ClickButtonCorrected | assets/js/pages/portfolio.js:35-44 | With a real last clicked button, the clicked one becomes the only highlighted button |
| PortfolioFilter.CorrectedFirstClickMovesHighlight | assets/js/pages/portfolio.js:35-44 | With the intended start, the first click moves the highlight |
| NavHeader.Capitalize | src/components/nav/partials/NavHeaderMain.jsx:15 | The label keeps the length and the tail of the id, with the first character upper-cased |
| NavHeader.Href | src/components/nav/partials/NavHeaderMain.jsx:16 | The href is `#` followed by the id |
| NavHeader.SectionLinks | src/components/nav/partials/NavHeaderMain.jsx:11-21 | One link per section in section order, whose href strips back to the id; no data gives no links |
| NavHeader.ActiveFlags | src/components/nav/partials/NavHeaderMain.jsx:26-33 | An item is active exactly when `activeHref` equals its href |
| NavHeader.ActiveIffHashOfId | src/components/nav/partials/NavHeaderMain.jsx:16-31 | An item is active exactly when `activeHref` is `#` followed by its section id |
| NavHeader.AtMostOneActive | src/components/nav/partials/NavHeaderMain.jsx:29-31 | With distinct section ids, at most one item is active |

## Left out

- Network and JSON: `fetch`, response parsing and cache headers. A request's outcome is the oracle `fetch(url)`. A non-ok status and a thrown error both give `None`.
- Async ordering: `loading` is set false before the un-awaited fallback finishes, and a result can arrive after unmount. `BlogPost.OnBlogId` gives the state after the fallback has finished.
- Browser APIs: DOM queries, `getBoundingClientRect`, `scrollIntoView`, `classList`, listeners, `CustomEvent` and `history.pushState`. Element tops are integers, because only the comparison with 100 or 20 matters. Events, storage and pushed history entries are fields of the state records.
- URL encoding: percent-decoding, `+` as space and `encodeURIComponent`. `AssetHelper.SpaUrl` takes an abstract encoder. `UrlQuery` keeps names and values as written.
- BlogView.Select: the search part is modelled as the parsed parameter list, so the serialisation by `url.toString()` and its re-parsing are left out.
- BlogData.FindRaw: ids are `Option<string>`, so JavaScript's `null` and `undefined` ids are one value `None`. The source's strict `===` tells them apart, and `find` here matches a `None` item id with a `None` raw id. `BlogData.IdMap` likewise looks up an item without an id under the key `"undefined"`, where a `null` id would become `"null"`.
- BlogData.IdMap: prototype properties of the plain object (`toString`, `constructor`, ...) that JavaScript would find for such keys are left out. Ids are strings, so the coercion of numeric ids is left out too.
- SidebarState.Effective: an `undefined` value is modelled as `false`. This happens when the stored map has no `default` entry and the section has none. An event then carries `false` where the source dispatches `undefined`.
- SidebarState.Mount: JSON parsing of the stored string is left out. A stored map is given as a map of booleans.
- Strings.ToLower: `toLowerCase` and `toUpperCase` are modelled for ASCII letters only. `trim` is modelled for the ASCII white-space characters only.
- Date formatting, `console` logging, React rendering and hooks are left out: they carry no rule.
- assets/js/main.js, include.js, sidebar.js, header-blog.js, about.js and contact.js are not part of this model. They are DOM wiring with no rule, or they rely on the browser's form validation.
- src/components/blog/BlogCard.jsx is not part of this model. It is presentational, and its image rule is the one in `BlogPost.ImageSrc`.
- vite.config.js is not part of this model: it is build configuration.

## Findings

| source | as written | input that shows it | evidently intended | confidence | as-written member | corrected member |
|---|---|---|---|---|---|---|
| assets/js/pages/portfolio.js:35-41 | `lastClickedBtn` starts as the whole NodeList. A NodeList has no `classList`, so `lastClickedBtn.classList.remove` throws a TypeError on every click. The throw comes after the items are filtered and before the clicked button is marked or remembered. | Any filter-button click, e.g. the second button with text `Web` while the first is marked | The first button starts as the last clicked, so each click moves the mark to the clicked button | high; not executed | PortfolioFilter.AsWrittenHighlightNeverMoves | PortfolioFilter.ClickButtonCorrected |

=== FILE: asset_helper.dfy ===
/**
 * Asset and SPA URL builders (src/hooks/assetHelper.js). The browser's
 * `window.location.hostname` is the explicit parameter `host`.
 */
module AssetHelper {
  import opened Strings
  import UrlQuery

  const RepoBase := "/portfolio"

  /** The development hosts on which the site is served from the root. */
  predicate IsDevHost(host: string) {
    host == "localhost" || host == "127.0.0.1"
  }

  /** `getBaseUrl`: empty on a development host, the repository prefix elsewhere. */
  function BaseUrl(host: string): (r: string)
    ensures r == "" <==> IsDevHost(host)
    ensures r == "" || r == RepoBase
  {
    if host == "localhost" || host == "127.0.0.1" then "" else RepoBase
  }

  /** `isGitHubPages`: written independently of `getBaseUrl`, and agrees with it. */
  function IsGitHubPages(host: string): (r: bool)
    ensures r <==> BaseUrl(host) != ""
  {
    host != "localhost" && host != "127.0.0.1"
  }

  predicate IsAbsoluteUrl(path: string) {
    StartsWith(path, "http://") || StartsWith(path, "https://")
  }

  /** `path` with a leading `/` ensured. */
  function WithLeadingSlash(path: string): (r: string)
    ensures StartsWith(r, "/") && EndsWith(r, path)
    ensures |r| <= |path| + 1
  {
    if StartsWith(path, "/") then path else "/" + path
  }

  /**
   * `getAssetUrl`. A missing path (`null`, `undefined`) is the empty string
   * here: both are falsy and both map to `''`.
   */
  function AssetUrl(host: string, path: string): (r: string)
    ensures path == "" ==> r == ""
    ensures IsAbsoluteUrl(path) ==> r == path
    ensures path != "" && !IsAbsoluteUrl(path) ==>
              && StartsWith(r, BaseUrl(host))
              && EndsWith(r, path)
              && r[|BaseUrl(host)|..] == WithLeadingSlash(path)
  {
    if path == "" then ""
    else if IsAbsoluteUrl(path) then path
    else BaseUrl(host) + WithLeadingSlash(path)
  }

  /** On a development host `getAssetUrl` is idempotent. */
  lemma AssetUrlIdempotentOnDevHost(host: string, path: string)
    requires IsDevHost(host)
    ensures AssetUrl(host, AssetUrl(host, path)) == AssetUrl(host, path)
  {
    var once := AssetUrl(host, path);
    if path != "" && !IsAbsoluteUrl(path) {
      assert once == WithLeadingSlash(path);
      assert StartsWith(once, "/");
    }
  }

  /** Elsewhere, re-applying it puts the repository prefix in front once more. */
  lemma AssetUrlReprefixesOnPages(host: string, path: string)
    requires !IsDevHost(host)
    requires path != "" && !IsAbsoluteUrl(path)
    ensures AssetUrl(host, AssetUrl(host, path)) == RepoBase + AssetUrl(host, path)
  {
    var once := AssetUrl(host, path);
    var w := WithLeadingSlash(path);
    assert once == RepoBase + w;
    assert |once| >= 11 && once[0] == '/' && once[1] == 'p';
    assert StartsWith(once, "/");
    assert !IsAbsoluteUrl(once) by {
      assert "http://"[0] == 'h' && "https://"[0] == 'h';
    }
    assert AssetUrl(host, once) == RepoBase + once;
  }

  /** `path` with at most one leading `/` removed. */
  function StripOneSlash(path: string): (r: string)
    ensures r == path || "/" + r == path
    ensures StartsWith(path, "/") ==> |r| == |path| - 1
  {
    if StartsWith(path, "/") then path[1..] else path
  }

  /** One `key=value` pair of the query string, through an abstract encoder. */
  function EncodePair(encode: string -> string, kv: (string, string)): string {
    encode(kv.0) + "=" + encode(kv.1)
  }

  function EncodePairs(encode: string -> string, params: seq<(string, string)>): (r: seq<string>)
    ensures |r| == |params|
    ensures forall i :: 0 <= i < |params| ==> r[i] == EncodePair(encode, params[i])
  {
    if params == [] then [] else [EncodePair(encode, params[0])] + EncodePairs(encode, params[1..])
  }

  /** The name/value list a query string of encoded pairs stands for. */
  function EncodedParams(encode: string -> string, params: seq<(string, string)>): (r: UrlQuery.Query)
    ensures |r| == |params|
    ensures forall i :: 0 <= i < |params| ==> r[i] == UrlQuery.Param(encode(params[i].0), encode(params[i].1))
  {
    if params == [] then []
    else [UrlQuery.Param(encode(params[0].0), encode(params[0].1))] + EncodedParams(encode, params[1..])
  }

  /** `encodeURIComponent` escapes `&` and `=`, so no encoded text contains either. */
  ghost predicate EscapesSeparators(encode: string -> string) {
    forall x :: '&' !in encode(x) && '=' !in encode(x)
  }

  /** The part of an SPA URL before its query string. */
  function SpaPrefix(host: string, path: string): string {
    BaseUrl(host) + "/?/" + StripOneSlash(path)
  }

  /**
   * `createSpaUrl`. The parameter object is its entry list, in entry order;
   * `encodeURIComponent` is the abstract `encode`. Read back as a query
   * string, the part after the prefix is exactly the encoded entries.
   */
  function SpaUrl(host: string, path: string, params: seq<(string, string)>,
                  encode: string -> string): (r: string)
    ensures StartsWith(r, SpaPrefix(host, path))
    ensures params == [] ==> r == SpaPrefix(host, path)
    ensures params != [] ==> |r| > |SpaPrefix(host, path)| && r[|SpaPrefix(host, path)|] == '?'
    ensures params != [] && EscapesSeparators(encode) ==>
              UrlQuery.Parse(r[|SpaPrefix(host, path)|..]) == EncodedParams(encode, params)
  {
    var spaUrl := BaseUrl(host) + "/?/" + StripOneSlash(path);
    if |params| > 0 then
      var query := Join(EncodePairs(encode, params), "&");
      assert (spaUrl + "?" + query)[|spaUrl|..] == "?" + query;
      QueryParsesBack(encode, params);
      spaUrl + "?" + query
    else spaUrl
  }

  /** With an encoder that escapes `&` and `=`, the query string parses back to the encoded entries. */
  lemma QueryParsesBack(encode: string -> string, params: seq<(string, string)>)
    ensures EscapesSeparators(encode) ==>
              UrlQuery.Parse("?" + Join(EncodePairs(encode, params), "&")) == EncodedParams(encode, params)
  {
    var q := EncodedParams(encode, params);
    assert EncodePairs(encode, params) == UrlQuery.PairTexts(q);
    if EscapesSeparators(encode) {
      UrlQuery.ParseSerialize(q);
    }
  }

  /** The query string after the `?` is the encoded pairs joined by `&`, in entry order (see `QueryStringAppend`). */
  lemma SpaUrlJoinsPairs(host: string, path: string, params: seq<(string, string)>, encode: string -> string)
    requires params != []
    ensures SpaUrl(host, path, params, encode)[|SpaPrefix(host, path)| + 1..] == Join(EncodePairs(encode, params), "&")
  {
    var pre := SpaPrefix(host, path);
    assert SpaUrl(host, path, params, encode) == pre + "?" + Join(EncodePairs(encode, params), "&");
  }

  /** Appending one more parameter appends `&key=value` to the query string. */
  lemma {:induction false} QueryStringAppend(encode: string -> string,
                                             params: seq<(string, string)>, kv: (string, string))
    requires params != []
    ensures Join(EncodePairs(encode, params + [kv]), "&")
            == Join(EncodePairs(encode, params), "&") + "&" + EncodePair(encode, kv)
  {
    var all := EncodePairs(encode, params + [kv]);
    var last := EncodePair(encode, kv);
    assert all == EncodePairs(encode, params) + [last] by {
      assert (params + [kv])[|params|] == kv;
    }
    assert all[..|all| - 1] == EncodePairs(encode, params);
    assert all[|all| - 1] == last;
  }

  /** The query string of a single parameter is exactly its `key=value` pair. */
  lemma SingleParamSpaUrl(host: string, path: string, key: string, value: string,
                          encode: string -> string)
    ensures SpaUrl(host, path, [(key, value)], encode)
            == BaseUrl(host) + "/?/" + StripOneSlash(path) + "?" + encode(key) + "=" + encode(value)
  {
  }
}

=== FILE: blog_data.dfy ===
/**
 * Blog item normaliser and id resolver (src/hooks/blogDataHelper.js).
 *
 * JavaScript objects with optional properties become records whose optional
 * fields are `Option`s; `None` stands for `null`/`undefined`. An id is
 * "truthy" when present and not the empty string.
 */
module BlogData {
  import opened Wrappers

  /** The post metadata record an item carries as `blogData`; `meta` stands for its other fields. */
  datatype PostMeta = PostMeta(id: Option<string>, meta: map<string, string>)

  /** An entry of a wrapper's `_rawData.items`. */
  datatype RawItem = RawItem(id: Option<string>, blogData: Option<PostMeta>)

  /** An item's own `_rawData`. */
  datatype RawData = RawData(blogData: Option<PostMeta>)

  /** An article wrapper (`dataWrapper` or `item.articleWrapper`); `rawItems` is `_rawData.items`. */
  datatype Wrapper = Wrapper(rawItems: Option<seq<RawItem>>)

  datatype Item = Item(
    id: Option<string>,
    blogData: Option<PostMeta>,
    rawData: Option<RawData>,
    articleWrapper: Option<Wrapper>)

  /** `item.blogData && item.blogData.id`. */
  predicate HasValidBlogData(item: Item) {
    item.blogData.Some? && Truthy(item.blogData.value.id)
  }

  /** A raw entry enters the id map when its `id` and `blogData` are both truthy. */
  predicate Enters(raw: RawItem) {
    Truthy(raw.id) && raw.blogData.Some?
  }

  /** The property name an id becomes when used as an object key: `undefined` becomes "undefined". */
  function JsKey(id: Option<string>): string {
    match id
    case Some(s) => s
    case None => "undefined"
  }

  /** Raw entry `raw` enters the map under key `k`. */
  predicate EntersAs(raw: RawItem, k: string) {
    Enters(raw) && raw.id == Some(k)
  }

  /**
   * `blogIdMap`: raw entries folded left to right, so a later duplicate
   * overwrites an earlier one (see `IdMapLastWins`).
   */
  function IdMap(raw: seq<RawItem>): (m: map<string, PostMeta>)
    ensures forall k :: k in m <==> exists i :: 0 <= i < |raw| && EntersAs(raw[i], k)
  {
    if raw == [] then map[]
    else
      var m := IdMap(raw[..|raw| - 1]);
      var last := raw[|raw| - 1];
      assert forall i :: 0 <= i < |raw| - 1 ==> raw[..|raw| - 1][i] == raw[i];
      if Enters(last) then m[last.id.value := last.blogData.value] else m
  }

  /** The map holds, for each key, the `blogData` of the last entry entering under it. */
  lemma {:induction false} IdMapLastWins(raw: seq<RawItem>, k: string, i: nat)
    requires i < |raw| && EntersAs(raw[i], k)
    requires forall j :: i < j < |raw| ==> !EntersAs(raw[j], k)
    ensures k in IdMap(raw) && IdMap(raw)[k] == raw[i].blogData.value
  {
    var prefix := raw[..|raw| - 1];
    if i < |raw| - 1 {
      assert prefix[i] == raw[i];
      forall j | i < j < |prefix| ensures !EntersAs(prefix[j], k) {
        assert prefix[j] == raw[j];
      }
      IdMapLastWins(prefix, k, i);
      assert !EntersAs(raw[|raw| - 1], k);
    }
  }

  /** The map built from the parent wrapper, empty when it has no raw items. */
  function WrapperMap(wrapper: Option<Wrapper>): map<string, PostMeta> {
    if wrapper.Some? && wrapper.value.rawItems.Some? then IdMap(wrapper.value.rawItems.value) else map[]
  }

  /** The `items.map` callback of `processBlogItems`. */
  function ProcessItem(m: map<string, PostMeta>, item: Item): (r: Item)
    ensures r.(blogData := item.blogData) == item
    ensures HasValidBlogData(item) ==> r == item
    ensures !HasValidBlogData(item) && JsKey(item.id) in m ==> r.blogData == Some(m[JsKey(item.id)])
    ensures !HasValidBlogData(item) && JsKey(item.id) !in m ==>
              r.blogData == (if item.rawData.Some? && item.rawData.value.blogData.Some?
                             then item.rawData.value.blogData else item.blogData)
  {
    if HasValidBlogData(item) then item
    else if JsKey(item.id) in m then item.(blogData := Some(m[JsKey(item.id)]))
    else if item.rawData.Some? && item.rawData.value.blogData.Some? then
      item.(blogData := item.rawData.value.blogData)
    else item
  }

  /**
   * `processBlogItems(items, dataWrapper)`. `None` is a missing `items`.
   * Every output item is its input item, or a copy of it differing only in
   * `blogData`; value semantics make "the input is not mutated" automatic.
   */
  function ProcessBlogItems(items: Option<seq<Item>>, wrapper: Option<Wrapper>): (r: seq<Item>)
    ensures items.None? || items.value == [] ==> r == []
    ensures items.Some? ==> |r| == |items.value|
    ensures items.Some? ==> forall i :: 0 <= i < |r| ==>
              && r[i].(blogData := items.value[i].blogData) == items.value[i]
              && (HasValidBlogData(items.value[i]) ==> r[i] == items.value[i])
    ensures items.Some? ==> forall i :: 0 <= i < |r| ==> r[i] == ProcessItem(WrapperMap(wrapper), items.value[i])
  {
    if items.None? || |items.value| == 0 then []
    else
      var m := WrapperMap(wrapper);
      ProcessAll(m, items.value)
  }

  function ProcessAll(m: map<string, PostMeta>, items: seq<Item>): (r: seq<Item>)
    ensures |r| == |items|
    ensures forall i :: 0 <= i < |items| ==> r[i] == ProcessItem(m, items[i])
  {
    if items == [] then [] else [ProcessItem(m, items[0])] + ProcessAll(m, items[1..])
  }

  /** The first raw entry whose id is `===` to `id` (`Array.prototype.find`). */
  function FindRaw(raw: seq<RawItem>, id: Option<string>): (r: Option<RawItem>)
    ensures r.Some? <==> exists i :: 0 <= i < |raw| && raw[i].id == id
    ensures r.Some? ==> r.value.id == id
    ensures r.Some? ==> exists i :: 0 <= i < |raw| && raw[i] == r.value
                                    && forall j :: 0 <= j < i ==> raw[j].id != id
  {
    if raw == [] then None
    else if raw[0].id == id then Some(raw[0])
    else
      var r := FindRaw(raw[1..], id);
      assert forall i :: 0 < i < |raw| ==> raw[1..][i - 1] == raw[i];
      r
  }

  /** `getBlogIdFromItem`: the three lookups in their fixed order. */
  function BlogIdFromItem(item: Option<Item>): (r: Option<string>)
    ensures r.Some? ==> r.value != ""
    ensures item.None? ==> r.None?
    ensures item.Some? && HasValidBlogData(item.value) ==> r == item.value.blogData.value.id
  {
    if item.None? then None
    else
      var it := item.value;
      if HasValidBlogData(it) then it.blogData.value.id
      else if it.rawData.Some? && it.rawData.value.blogData.Some?
              && Truthy(it.rawData.value.blogData.value.id) then
        it.rawData.value.blogData.value.id
      else if it.articleWrapper.Some? && it.articleWrapper.value.rawItems.Some? then
        var orig := FindRaw(it.articleWrapper.value.rawItems.value, it.id);
        if orig.Some? && orig.value.blogData.Some? && Truthy(orig.value.blogData.value.id) then
          orig.value.blogData.value.id
        else None
      else None
  }

  /** `item._rawData && item._rawData.blogData && item._rawData.blogData.id`. */
  predicate HasRawDataId(item: Item) {
    item.rawData.Some? && item.rawData.value.blogData.Some? && Truthy(item.rawData.value.blogData.value.id)
  }

  /** An item's resolved id is one of the three places the resolver looks, the third being the first raw entry with an equal id. */
  lemma BlogIdComesFromAKnownPlace(item: Item)
    ensures var r := BlogIdFromItem(Some(item));
            r.Some? ==>
              || (item.blogData.Some? && item.blogData.value.id == r)
              || (item.rawData.Some? && item.rawData.value.blogData.Some?
                  && item.rawData.value.blogData.value.id == r)
              || (item.articleWrapper.Some? && item.articleWrapper.value.rawItems.Some?
                  && exists i :: 0 <= i < |item.articleWrapper.value.rawItems.value|
                       && (forall j :: 0 <= j < i ==> item.articleWrapper.value.rawItems.value[j].id != item.id)
                       && var raw := item.articleWrapper.value.rawItems.value[i];
                          raw.id == item.id && raw.blogData.Some? && raw.blogData.value.id == r)
  {
    var r := BlogIdFromItem(Some(item));
    if r.Some? && !HasValidBlogData(item) && !HasRawDataId(item) {
      var raws := item.articleWrapper.value.rawItems.value;
      var orig := FindRaw(raws, item.id);
      var i :| 0 <= i < |raws| && raws[i] == orig.value && forall j :: 0 <= j < i ==> raws[j].id != item.id;
      assert raws[i].id == item.id;
    }
  }

  /**
   * The third lookup: when neither of the item's own ids is truthy, the
   * result is decided by the FIRST wrapper raw entry whose id is strictly
   * equal to the item's; a later entry with the same id is never consulted.
   */
  lemma WrapperLookupUsesFirstMatch(item: Item, i: nat)
    requires !HasValidBlogData(item) && !HasRawDataId(item)
    requires item.articleWrapper.Some? && item.articleWrapper.value.rawItems.Some?
    requires i < |item.articleWrapper.value.rawItems.value|
    requires item.articleWrapper.value.rawItems.value[i].id == item.id
    requires forall j :: 0 <= j < i ==> item.articleWrapper.value.rawItems.value[j].id != item.id
    ensures var raw := item.articleWrapper.value.rawItems.value[i];
            BlogIdFromItem(Some(item))
            == if raw.blogData.Some? && Truthy(raw.blogData.value.id) then raw.blogData.value.id else None
  {
    var raws := item.articleWrapper.value.rawItems.value;
    var orig := FindRaw(raws, item.id);
    var x :| 0 <= x < |raws| && raws[x] == orig.value && forall j :: 0 <= j < x ==> raws[j].id != item.id;
    assert x == i;
  }

  /** Without a raw entry of equal id, the third lookup yields nothing. */
  lemma WrapperLookupWithoutMatch(item: Item)
    requires !HasValidBlogData(item) && !HasRawDataId(item)
    requires item.articleWrapper.Some? && item.articleWrapper.value.rawItems.Some?
    requires forall j :: 0 <= j < |item.articleWrapper.value.rawItems.value| ==>
               item.articleWrapper.value.rawItems.value[j].id != item.id
    ensures BlogIdFromItem(Some(item)).None?
  {
  }

  /**
   * The wrapper lookup of `processBlogItems`: when an item lacks a valid
   * `blogData` and some raw entry with the same id enters the map, the item
   * receives the `blogData` of the LAST such entry.
   */
  lemma ProcessUsesLastDuplicate(raw: seq<RawItem>, item: Item, i: nat)
    requires i < |raw| && EntersAs(raw[i], JsKey(item.id))
    requires forall j :: i < j < |raw| ==> !EntersAs(raw[j], JsKey(item.id))
    requires !HasValidBlogData(item)
    ensures ProcessItem(IdMap(raw), item).blogData == raw[i].blogData
  {
    IdMapLastWins(raw, JsKey(item.id), i);
  }

  /**
   * Where a processed item's `blogData` comes from, in order of precedence:
   * its own when valid; else the last raw entry of the wrapper entering under
   * its key; else its own `_rawData.blogData`; else nothing changes.
   */
  lemma ProcessedBlogDataSource(items: seq<Item>, wrapper: Option<Wrapper>, i: nat)
    requires i < |items|
    ensures var r := ProcessBlogItems(Some(items), wrapper)[i];
            var item := items[i];
            var raws := if wrapper.Some? && wrapper.value.rawItems.Some? then wrapper.value.rawItems.value else [];
            var k := JsKey(item.id);
            && (HasValidBlogData(item) ==> r == item)
            && (!HasValidBlogData(item) && (exists j :: 0 <= j < |raws| && EntersAs(raws[j], k)) ==>
                  exists j :: 0 <= j < |raws| && EntersAs(raws[j], k)
                    && (forall x :: j < x < |raws| ==> !EntersAs(raws[x], k))
                    && r == item.(blogData := raws[j].blogData))
            && (!HasValidBlogData(item) && (forall j :: 0 <= j < |raws| ==> !EntersAs(raws[j], k))
                && item.rawData.Some? && item.rawData.value.blogData.Some? ==>
                  r == item.(blogData := item.rawData.value.blogData))
            && (!HasValidBlogData(item) && (forall j :: 0 <= j < |raws| ==> !EntersAs(raws[j], k))
                && !(item.rawData.Some? && item.rawData.value.blogData.Some?) ==>
                  r == item)
  {
    var m := WrapperMap(wrapper);
    var item := items[i];
    var raws := if wrapper.Some? && wrapper.value.rawItems.Some? then wrapper.value.rawItems.value else [];
    var k := JsKey(item.id);
    assert ProcessBlogItems(Some(items), wrapper)[i] == ProcessItem(m, item);
    if !HasValidBlogData(item) && exists j :: 0 <= j < |raws| && EntersAs(raws[j], k) {
      var j :| 0 <= j < |raws| && EntersAs(raws[j], k);
      var last := LastEntering(raws, k, j);
      IdMapLastWins(raws, k, last);
    }
  }

  /** The last raw entry entering under `k`, at or after a known one. */
  function LastEntering(raw: seq<RawItem>, k: string, j: nat): (last: nat)
    requires j < |raw| && EntersAs(raw[j], k)
    ensures j <= last < |raw| && EntersAs(raw[last], k)
    ensures forall x :: last < x < |raw| ==> !EntersAs(raw[x], k)
    decreases |raw| - j
  {
    if exists x :: j < x < |raw| && EntersAs(raw[x], k) then
      var x :| j < x < |raw| && EntersAs(raw[x], k);
      LastEntering(raw, k, x)
    else j
  }

  /** The resolver's second and third places are consulted only when the earlier ones fail. */
  lemma ResolverPrecedence(item: Item)
    ensures !HasValidBlogData(item) && item.rawData.Some? && item.rawData.value.blogData.Some?
            && Truthy(item.rawData.value.blogData.value.id)
            ==> BlogIdFromItem(Some(item)) == item.rawData.value.blogData.value.id
    ensures !HasValidBlogData(item)
            && !(item.rawData.Some? && item.rawData.value.blogData.Some?
                 && Truthy(item.rawData.value.blogData.value.id))
            && (item.articleWrapper.None? || item.articleWrapper.value.rawItems.None?)
            ==> BlogIdFromItem(Some(item)).None?
  {
  }

  /** A raw entry without a truthy id or without `blogData` never supplies one. */
  lemma NonEnteringRawIgnored(raw: seq<RawItem>, r: RawItem)
    requires !Enters(r)
    ensures IdMap(raw + [r]) == IdMap(raw)
  {
    assert (raw + [r])[..|raw + [r]| - 1] == raw;
  }

  /** A processed item whose attached `blogData` has a truthy id resolves to that id. */
  lemma ProcessedItemResolves(m: map<string, PostMeta>, item: Item)
    requires var r := ProcessItem(m, item); r.blogData.Some? && Truthy(r.blogData.value.id)
    ensures BlogIdFromItem(Some(ProcessItem(m, item))) == ProcessItem(m, item).blogData.value.id
  {
  }

  /**
   * The wrapper map only asks for a `blogData`, not for its id: a processed
   * item can carry a `blogData` with no id and then resolve to nothing.
   */
  lemma ProcessedItemMayNotResolve()
    ensures var raw := [RawItem(Some("p1"), Some(PostMeta(None, map[])))];
            var item := Item(Some("p1"), None, None, None);
            var r := ProcessBlogItems(Some([item]), Some(Wrapper(Some(raw))));
            |r| == 1 && r[0].blogData.Some? && BlogIdFromItem(Some(r[0])).None?
  {
    var raw := [RawItem(Some("p1"), Some(PostMeta(None, map[])))];
    var item := Item(Some("p1"), None, None, None);
    var m := IdMap(raw);
    assert Enters(raw[0]);
    assert "p1" in m;
    var r := ProcessBlogItems(Some([item]), Some(Wrapper(Some(raw))));
    assert r[0] == ProcessItem(m, item);
  }
}

=== FILE: blog_list.dfy ===
/**
 * The blog list (src/components/articles/BlogList.jsx): one card per item,
 * and the click path from a card to `onBlogSelect`. A call of
 * `onBlogSelect` is recorded as an entry of the returned call list.
 */
module BlogList {
  import opened Wrappers
  import BlogData
  import BlogView

  datatype Card = Card(key: Option<string>, item: BlogData.Item)

  /** The rendered list: `None` is the `null` render of a missing or empty list. */
  function Cards(items: Option<seq<BlogData.Item>>): (r: Option<seq<Card>>)
    ensures r.None? <==> items.None? || items.value == []
    ensures r.Some? ==> |r.value| == |items.value|
    ensures r.Some? ==> forall i :: 0 <= i < |r.value| ==>
              r.value[i].item == items.value[i] && r.value[i].key == items.value[i].id
  {
    if items.None? || |items.value| == 0 then None
    else Some(CardsOf(items.value))
  }

  function CardsOf(items: seq<BlogData.Item>): (r: seq<Card>)
    ensures |r| == |items|
    ensures forall i :: 0 <= i < |r| ==> r[i] == Card(items[i].id, items[i])
  {
    if items == [] then [] else [Card(items[0].id, items[0])] + CardsOf(items[1..])
  }

  /** `handleBlogClick`: forwards a truthy id once, and nothing otherwise. */
  function BlogClick(blogId: Option<string>): (calls: seq<string>)
    ensures |calls| <= 1
    ensures calls != [] <==> Truthy(blogId)
    ensures calls != [] ==> calls[0] == blogId.value && calls[0] != ""
  {
    if !Truthy(blogId) then [] else [blogId.value]
  }

  /** `handleCardClick`: resolve the item's id and forward it when there is one. */
  function CardClick(item: BlogData.Item): (calls: seq<string>)
    ensures BlogData.BlogIdFromItem(Some(item)).Some? ==>
              calls == [BlogData.BlogIdFromItem(Some(item)).value]
    ensures BlogData.BlogIdFromItem(Some(item)).None? ==> calls == []
  {
    var blogId := BlogData.BlogIdFromItem(Some(item));
    if blogId.Some? && blogId.value != "" then BlogClick(blogId) else []
  }

  /** The blog section's state after a card click: the calls go to `handleBlogSelect`. */
  function ClickCard(s: BlogView.BlogState, item: BlogData.Item): (r: BlogView.BlogState)
    ensures CardClick(item) == [] ==> r == s
  {
    var calls := CardClick(item);
    if calls == [] then s else BlogView.Select(s, calls[0])
  }

  /**
   * Clicking a card whose item resolves to an id opens exactly that post,
   * and the URL then reads back the same id.
   */
  lemma ClickOpensResolvedPost(s: BlogView.BlogState, item: BlogData.Item)
    requires BlogData.BlogIdFromItem(Some(item)).Some?
    ensures var id := BlogData.BlogIdFromItem(Some(item)).value;
            var r := ClickCard(s, item);
            BlogView.Render(r) == BlogView.PostPage(id)
            && BlogView.Extract(r.loc).blogId == Some(id)
  {
    var id := BlogData.BlogIdFromItem(Some(item)).value;
    BlogView.SelectThenExtract(s, id);
  }
}

=== FILE: blog_post.dfy ===
/**
 * The post loader and the post page's displayed fields
 * (src/components/blogpost/BlogPost.jsx).
 *
 * `fetch` is an oracle: `fetch(url)` is `Some(post)` when the request
 * answers with an ok status and a parsed body, and `None` for a non-ok
 * status and for a thrown error alike. The host name is a parameter.
 */
module BlogPost {
  import opened Wrappers
  import opened Strings
  import AssetHelper
  import TableOfContents

  datatype Content = Content(sections: Option<seq<TableOfContents.Section>>)

  /** A post as parsed from its JSON file; every field may be missing. */
  datatype Post = Post(
    title: Option<map<string, string>>,
    description: Option<map<string, string>>,
    content: Option<map<string, Content>>,
    tags: Option<seq<string>>,
    image: Option<string>)

  type Fetch = string -> Option<Post>

  function PostFile(id: string): string {
    "/data/blog-posts/" + id + ".json"
  }

  /** The first request, through `getAssetUrl`. */
  function PrimaryPath(host: string, id: string): (r: string)
    ensures StartsWith(r, AssetHelper.BaseUrl(host))
    ensures r[|AssetHelper.BaseUrl(host)|..] == PostFile(id)
  {
    assert PostFile(id)[0] == '/' && "http://"[0] == 'h' && "https://"[0] == 'h';
    assert StartsWith(PostFile(id), "/");
    AssetHelper.AssetUrl(host, PostFile(id))
  }

  /** The path variations tried, in this order, on a GitHub Pages host. */
  function FallbackPaths(id: string): (r: seq<string>)
    ensures |r| == 3
  {
    [ "/react-portfolio-template/data/blog-posts/" + id + ".json",
      "./data/blog-posts/" + id + ".json",
      "../data/blog-posts/" + id + ".json" ]
  }

  /**
   * The fallback loop: paths are requested in order until one answers;
   * `tried` lists the requests made, and `post` the first answer.
   */
  function FirstSuccess(paths: seq<string>, fetch: Fetch): (r: (Option<Post>, seq<string>))
    ensures 1 <= |r.1| <= |paths| || (paths == [] && r.1 == [])
    ensures r.1 == paths[..|r.1|]
    ensures forall j :: 0 <= j < |r.1| - 1 ==> fetch(paths[j]).None?
    ensures r.0.Some? ==> r.1 != []
    ensures r.0.Some? ==> r.0 == fetch(r.1[|r.1| - 1])
    ensures r.0.None? ==> r.1 == paths && forall j :: 0 <= j < |paths| ==> fetch(paths[j]).None?
  {
    if paths == [] then (None, [])
    else if fetch(paths[0]).Some? then (fetch(paths[0]), [paths[0]])
    else
      var rest := FirstSuccess(paths[1..], fetch);
      assert forall j :: 0 < j < |paths| ==> paths[j] == paths[1..][j - 1];
      (rest.0, [paths[0]] + rest.1)
  }

  /** What one call of `loadBlogPost` leaves behind: the post shown and the requests made. */
  datatype LoadResult = LoadResult(post: Option<Post>, requests: seq<string>)

  /**
   * `loadBlogPost(id)` followed by `tryFallbackLoad(id)` when the primary
   * request fails on a GitHub Pages host. A failed load keeps `previous`:
   * nothing in the component clears the post it already holds.
   */
  function Load(host: string, id: string, fetch: Fetch, previous: Option<Post>): (r: LoadResult)
    ensures |r.requests| >= 1 && r.requests[0] == PrimaryPath(host, id)
    ensures fetch(PrimaryPath(host, id)).Some? ==>
              r == LoadResult(fetch(PrimaryPath(host, id)), [PrimaryPath(host, id)])
    ensures !AssetHelper.IsGitHubPages(host) ==> r.requests == [PrimaryPath(host, id)]
    ensures r.post.None? ==> previous.None?
    ensures fetch(PrimaryPath(host, id)).None? && !AssetHelper.IsGitHubPages(host) ==> r.post == previous
  {
    var primary := PrimaryPath(host, id);
    var answer := fetch(primary);
    if answer.Some? then LoadResult(answer, [primary])
    else if AssetHelper.IsGitHubPages(host) then
      var fallback := FirstSuccess(FallbackPaths(id), fetch);
      LoadResult(if fallback.0.Some? then fallback.0 else previous, [primary] + fallback.1)
    else LoadResult(previous, [primary])
  }

  /**
   * The fallback order on a GitHub Pages host: after a failed primary request
   * the variations are tried in order, the first that answers wins and no
   * later one is requested.
   */
  lemma FallbackFirstWins(host: string, id: string, fetch: Fetch, previous: Option<Post>, k: nat)
    requires AssetHelper.IsGitHubPages(host)
    requires fetch(PrimaryPath(host, id)).None?
    requires k < 3 && fetch(FallbackPaths(id)[k]).Some?
    requires forall j :: 0 <= j < k ==> fetch(FallbackPaths(id)[j]).None?
    ensures Load(host, id, fetch, previous)
            == LoadResult(fetch(FallbackPaths(id)[k]), [PrimaryPath(host, id)] + FallbackPaths(id)[..k + 1])
  {
    var fb := FirstSuccess(FallbackPaths(id), fetch);
  }

  /** When every request fails, the previously held post (if any) stays. */
  lemma AllFailKeepsPrevious(host: string, id: string, fetch: Fetch, previous: Option<Post>)
    requires fetch(PrimaryPath(host, id)).None?
    requires forall j :: 0 <= j < 3 ==> fetch(FallbackPaths(id)[j]).None?
    ensures Load(host, id, fetch, previous).post == previous
  {
  }

  datatype PostState = PostState(post: Option<Post>, loading: bool, requests: seq<string>)

  /** The component starts with no post and the spinner showing. */
  const InitialState := PostState(None, true, [])

  /**
   * The `blogId` effect, with the fallback's outcome already in: a falsy id
   * attempts nothing; otherwise the load runs and `loading` ends false.
   */
  function OnBlogId(s: PostState, host: string, blogId: Option<string>, fetch: Fetch): (r: PostState)
    ensures !(blogId.Some? && blogId.value != "") ==> r == s
    ensures blogId.Some? && blogId.value != "" ==>
              !r.loading && |r.requests| > |s.requests|
              && r.requests[|s.requests|] == PrimaryPath(host, blogId.value)
  {
    if blogId.Some? && blogId.value != "" then
      var l := Load(host, blogId.value, fetch, s.post);
      PostState(l.post, false, s.requests + l.requests)
    else s
  }

  /** A failed load for a new id leaves the old post on screen. */
  lemma FailedReloadShowsOldPost(s: PostState, host: string, id: string, fetch: Fetch)
    requires id != ""
    requires fetch(PrimaryPath(host, id)).None?
    requires forall j :: 0 <= j < 3 ==> fetch(FallbackPaths(id)[j]).None?
    ensures OnBlogId(s, host, Some(id), fetch).post == s.post
  {
  }

  /** `m[k]` is truthy: present, as `Lookup` gives it, and a non-empty string. */
  predicate HasText(m: map<string, string>, k: string) {
    Truthy(Lookup(m, k))
  }

  /** `title[lang] || title.en || fallback` with JavaScript's truthiness of strings. */
  function Localized(field: Option<map<string, string>>, lang: string, fallback: string): (r: string)
    ensures field.Some? && HasText(field.value, lang) ==> r == field.value[lang]
    ensures field.Some? && !HasText(field.value, lang) && HasText(field.value, "en") ==> r == field.value["en"]
    ensures field.Some? && !HasText(field.value, lang) && !HasText(field.value, "en") ==> r == fallback
    ensures r == fallback || (field.Some? && r in field.value.Values && r != "")
    ensures field.None? ==> r == fallback
  {
    if field.Some? && lang in field.value && field.value[lang] != "" then field.value[lang]
    else if field.Some? && "en" in field.value && field.value["en"] != "" then field.value["en"]
    else fallback
  }

  /** An empty localised string falls through to English. */
  lemma EmptyLocalizedFallsToEnglish(field: map<string, string>, lang: string, fallback: string)
    requires lang in field && field[lang] == ""
    requires "en" in field && field["en"] != ""
    ensures Localized(Some(field), lang, fallback) == field["en"]
  {
  }

  /** `content[lang] || content.en`: a present object is truthy, whatever it holds. */
  function LocalizedContent(content: Option<map<string, Content>>, lang: string): (r: Option<Content>)
    ensures r.Some? ==> content.Some? && r.value in content.value.Values
    ensures content.Some? && lang in content.value ==> r == Some(content.value[lang])
    ensures content.Some? && lang !in content.value && "en" in content.value ==> r == Some(content.value["en"])
    ensures r.None? <==> content.None? || (lang !in content.value && "en" !in content.value)
  {
    if content.Some? && lang in content.value then Some(content.value[lang])
    else if content.Some? && "en" in content.value then Some(content.value["en"])
    else None
  }

  /** The `src` of the post image: an `http` prefix is kept, any other path goes through `getAssetUrl`. */
  function ImageSrc(host: string, image: string): (r: string)
    ensures StartsWith(image, "http") ==> r == image
    ensures !StartsWith(image, "http") && image != "" ==> StartsWith(r, AssetHelper.BaseUrl(host)) && EndsWith(r, image)
  {
    if StartsWith(image, "http") then image else AssetHelper.AssetUrl(host, image)
  }

  /** A relative image gets exactly the `getAssetUrl` treatment: the base, then the slash-prefixed path. */
  lemma ImageSrcIsAssetUrl(host: string, image: string)
    requires !StartsWith(image, "http") && image != ""
    ensures ImageSrc(host, image) == AssetHelper.BaseUrl(host) + AssetHelper.WithLeadingSlash(image)
  {
    NotPrefixOfLonger(image, "http", "http://");
    NotPrefixOfLonger(image, "http", "https://");
  }

  datatype Shown = Shown(title: string, description: string, tags: seq<string>,
                         sections: seq<TableOfContents.Section>)

  datatype Screen = Loading | NotFound | Article(shown: Shown)

  /** The screen the component renders for its state and the reader's language. */
  function Render(s: PostState, lang: string): (r: Screen)
    ensures r.Loading? <==> s.loading
    ensures r.NotFound? <==> !s.loading && s.post.None?
    ensures r.Article? ==> r.shown.title != ""
    ensures r.Article? && s.post.value.tags.Some? ==> r.shown.tags == s.post.value.tags.value
    ensures r.Article? && s.post.value.tags.None? ==> r.shown.tags == []
  {
    if s.loading then Loading
    else if s.post.None? then NotFound
    else
      var p := s.post.value;
      var content := LocalizedContent(p.content, lang);
      Article(Shown(
        Localized(p.title, lang, "Untitled"),
        Localized(p.description, lang, ""),
        p.tags.GetOr([]),
        if content.Some? && content.value.sections.Some? then content.value.sections.value else []))
  }

  /** When every request for a fresh component fails, the "not found" screen shows. */
  lemma AllFailShowsNotFound(host: string, id: string, fetch: Fetch, lang: string)
    requires id != ""
    requires fetch(PrimaryPath(host, id)).None?
    requires forall j :: 0 <= j < 3 ==> fetch(FallbackPaths(id)[j]).None?
    ensures Render(OnBlogId(InitialState, host, Some(id), fetch), lang) == NotFound
  {
  }
}

=== FILE: blog_view.dfy ===
/**
 * The blog section's list/post view machine (src/components/articles/Blog.jsx).
 *
 * The browser location is a value: its search part is the already-parsed
 * parameter list of `URL.searchParams`, its hash the raw `location.hash`
 * string. `localStorage['current_blog_id']` is the `stored` field and each
 * `history.pushState` appends to `pushed`.
 */
module BlogView {
  import opened Wrappers
  import opened Strings
  import opened UrlQuery

  const BlogIdKey := "blogId"

  datatype Location = Location(search: Query, hash: string)

  /** What `getBlogIdFromUrl` returns: the raw id (possibly `""`) and `isPostView`. */
  datatype Extraction = Extraction(blogId: Option<string>, isPostView: bool)

  /** The part of the hash handed to `URLSearchParams`: from its first `?`, or all of it. */
  function HashQuery(hash: string): (r: string)
    ensures '?' in hash ==> StartsWith(r, "?") && EndsWith(hash, r)
    ensures '?' in hash ==> '?' !in hash[..|hash| - |r|]
    ensures '?' !in hash ==> r == hash
  {
    if '?' in hash then hash[IndexOf(hash, '?')..] else hash
  }

  /** The hash-derived id: consulted only when the hash mentions `blogId=`. */
  function HashBlogId(hash: string): (r: Option<string>)
    ensures !Contains(hash, "blogId=") ==> r.None?
  {
    if hash != "" && Contains(hash, "blogId=") then Get(Parse(HashQuery(hash)), BlogIdKey) else None
  }

  /** `getBlogIdFromUrl`: `urlBlogId || hashBlogId`, and `isPostView = !!blogId`. */
  function Extract(loc: Location): (r: Extraction)
    ensures r.isPostView <==> Truthy(r.blogId)
    ensures Truthy(Get(loc.search, BlogIdKey)) ==> r.blogId == Get(loc.search, BlogIdKey)
    ensures !Truthy(Get(loc.search, BlogIdKey)) ==> r.blogId == HashBlogId(loc.hash)
  {
    var urlBlogId := Get(loc.search, BlogIdKey);
    var blogId := if Truthy(urlBlogId) then urlBlogId else HashBlogId(loc.hash);
    Extraction(blogId, Truthy(blogId))
  }

  /** A `?blogId=` with an empty value counts as absent; a hash id may still apply. */
  lemma EmptySearchIdFallsThrough(loc: Location)
    requires Get(loc.search, BlogIdKey) == Some("")
    requires !Contains(loc.hash, "blogId=")
    ensures !Extract(loc).isPostView
  {
  }

  /** `#blog?blogId=X`: the id is read from the part after the `?`. */
  lemma HashWithQueryYieldsId(search: Query, prefix: string, id: string)
    requires '?' !in prefix && id != "" && '&' !in id
    requires !Truthy(Get(search, BlogIdKey))
    ensures Extract(Location(search, "#" + prefix + "?blogId=" + id)) == Extraction(Some(id), true)
  {
    var head := "#" + prefix;
    var tail := "?blogId=" + id;
    assert '?' !in head by {
      forall k | 0 <= k < |head| ensures head[k] != '?' {
        if k > 0 { assert head[k] == prefix[k - 1]; }
      }
    }
    assert "#" + prefix + "?blogId=" + id == head + tail;
    TailFacts(id);
    FirstQuestionMark(head, tail);
    ContainsSuffix(head, tail, "blogId=");
    HashIdOf(head + tail, tail, id);
  }

  lemma TailFacts(id: string)
    ensures StartsWith("?blogId=" + id, "?")
    ensures Contains("?blogId=" + id, "blogId=")
    ensures "?blogId=" + id == "?" + "blogId" + "=" + id
  {
    var tail := "?blogId=" + id;
    assert tail[1..8] == "blogId=";
    ContainsAt(tail, "blogId=", 1);
  }

  lemma HashIdOf(hash: string, tail: string, id: string)
    requires HashQuery(hash) == tail && tail == "?" + "blogId" + "=" + id
    requires Contains(hash, "blogId=") && '&' !in id
    ensures HashBlogId(hash) == Some(id)
  {
    ContainsNonEmpty(hash, "blogId=");
    ParseSinglePair("blogId", id);
  }

  /**
   * `#blogId=X`: the constructor strips only a leading `?`, so the key read
   * from the hash is `#blogId` and no id comes out of it.
   */
  lemma BareHashYieldsNothing(search: Query, id: string)
    requires '?' !in id && '&' !in id
    requires !Truthy(Get(search, BlogIdKey))
    ensures Extract(Location(search, "#blogId=" + id)) == Extraction(None, false)
  {
    var hash := "#blogId=" + id;
    assert '?' !in hash by {
      forall k | 0 <= k < |hash| ensures hash[k] != '?' {
        if k >= 8 { assert hash[k] == id[k - 8]; }
      }
    }
    assert HashQuery(hash) == "#blogId" + "=" + id;
    assert !StartsWith("#blogId", "?") by { assert "#blogId"[0] == '#'; }
    ParseSinglePair("#blogId", id);
  }

  lemma FirstQuestionMark(head: string, tail: string)
    requires '?' !in head && StartsWith(tail, "?")
    ensures HashQuery(head + tail) == tail
  {
    var s := head + tail;
    assert s[|head|] == '?';
    var i := IndexOf(s, '?');
    assert i == |head| by {
      assert forall k :: 0 <= k < |head| ==> s[k] == head[k];
    }
    assert s[i..] == tail;
  }

  lemma {:induction false} ContainsSuffix(head: string, tail: string, sub: string)
    requires Contains(tail, sub)
    ensures Contains(head + tail, sub)
  {
    if head == [] {
      assert head + tail == tail;
    } else {
      assert (head + tail)[1..] == head[1..] + tail;
      ContainsSuffix(head[1..], tail, sub);
    }
  }

  datatype View = ListView | PostView

  datatype BlogState = BlogState(
    view: View,
    selected: Option<string>,
    loc: Location,
    stored: Option<string>,
    pushed: seq<Location>)

  /** `currentView === 'post'` exactly when a blog id is selected. */
  predicate ViewConsistent(s: BlogState) {
    s.view == PostView <==> s.selected.Some?
  }

  /** The storage key mirrors the selection. */
  predicate StorageMirrors(s: BlogState) {
    s.stored == s.selected
  }

  /** The state before any effect runs: list view, nothing selected. */
  function Initial(loc: Location, stored: Option<string>): (s: BlogState)
    ensures ViewConsistent(s)
    ensures s.view == ListView && s.selected.None? && s.pushed == []
    ensures s.loc == loc && s.stored == stored
  {
    BlogState(ListView, None, loc, stored, [])
  }

  /**
   * The URL-check effect (on mount and on each section change) and the
   * popstate handler: both re-derive the view from the current location.
   */
  function Sync(s: BlogState): (r: BlogState)
    ensures ViewConsistent(r) && StorageMirrors(r)
    ensures r.loc == s.loc && r.pushed == s.pushed
    ensures Extract(s.loc).isPostView ==> r.view == PostView && r.selected == Extract(s.loc).blogId
    ensures !Extract(s.loc).isPostView ==> r.view == ListView && r.selected.None?
  {
    var e := Extract(s.loc);
    if e.isPostView && Truthy(e.blogId) then
      s.(view := PostView, selected := e.blogId, stored := e.blogId)
    else
      s.(view := ListView, selected := None, stored := None)
  }

  /** A popstate to `loc`: the browser moves first, then the handler re-derives. */
  function Popstate(s: BlogState, loc: Location): (r: BlogState)
    ensures r.loc == loc && ViewConsistent(r) && StorageMirrors(r)
    ensures Extract(loc).isPostView <==> r.view == PostView
  {
    Sync(s.(loc := loc))
  }

  /** Re-deriving twice is the same as once. */
  lemma SyncIdempotent(s: BlogState)
    ensures Sync(Sync(s)) == Sync(s)
  {
  }

  /** The state after a section change does not depend on the view held before it. */
  lemma SyncIgnoresHeldView(s: BlogState, t: BlogState)
    requires s.loc == t.loc && s.pushed == t.pushed
    ensures Sync(s) == Sync(t)
  {
  }

  /** `handleBlogSelect(id)`: post view, and `blogId` set in the search part. */
  function Select(s: BlogState, id: string): (r: BlogState)
    ensures r.view == PostView && r.selected == Some(id)
    ensures ViewConsistent(r) && StorageMirrors(r)
    ensures r.loc.hash == s.loc.hash
    ensures Get(r.loc.search, BlogIdKey) == Some(id)
    ensures r.pushed == s.pushed + [r.loc]
  {
    var loc := s.loc.(search := Set(s.loc.search, BlogIdKey, id));
    BlogState(PostView, Some(id), loc, Some(id), s.pushed + [loc])
  }

  /** `handleBackToList`: list view, and every `blogId` removed from the search part. */
  function Back(s: BlogState): (r: BlogState)
    ensures r.view == ListView && r.selected.None?
    ensures ViewConsistent(r) && StorageMirrors(r)
    ensures r.loc.hash == s.loc.hash
    ensures Get(r.loc.search, BlogIdKey).None?
    ensures r.pushed == s.pushed + [r.loc]
  {
    var loc := s.loc.(search := Delete(s.loc.search, BlogIdKey));
    BlogState(ListView, None, loc, None, s.pushed + [loc])
  }

  /** After selecting a non-empty id, re-reading the URL gives that id back. */
  lemma SelectThenExtract(s: BlogState, id: string)
    requires id != ""
    ensures Extract(Select(s, id).loc) == Extraction(Some(id), true)
    ensures Sync(Select(s, id)) == Select(s, id)
  {
  }

  /**
   * Going back keeps every other search parameter: each other name's lookup,
   * and every pair of another name as often as it occurred, in the same order.
   */
  lemma BackKeepsOtherParams(s: BlogState, name: string)
    requires name != BlogIdKey
    ensures Get(Back(s).loc.search, name) == Get(s.loc.search, name)
    ensures forall p: Param :: p.name != BlogIdKey ==> multiset(Back(s).loc.search)[p] == multiset(s.loc.search)[p]
    ensures Back(s).loc.search == Delete(s.loc.search, BlogIdKey)
  {
    DeleteKeepsOthers(s.loc.search, BlogIdKey, name);
    DeleteCounts(s.loc.search, BlogIdKey);
  }

  /**
   * Selecting keeps every other search parameter: each other name's lookup,
   * and, with the `blogId` pairs set aside, the very same list of pairs.
   */
  lemma SelectKeepsOtherParams(s: BlogState, id: string, name: string)
    requires name != BlogIdKey
    ensures Get(Select(s, id).loc.search, name) == Get(s.loc.search, name)
    ensures Delete(Select(s, id).loc.search, BlogIdKey) == Delete(s.loc.search, BlogIdKey)
  {
    SetKeepsOthers(s.loc.search, BlogIdKey, id, name);
    DeleteAfterSet(s.loc.search, BlogIdKey, id);
  }

  /** Select then back restores the search part when it had no `blogId` before. */
  lemma SelectBackRoundTrip(s: BlogState, id: string)
    requires !Has(s.loc.search, BlogIdKey)
    ensures Back(Select(s, id)).loc == s.loc
  {
    DeleteAfterSet(s.loc.search, BlogIdKey, id);
  }

  /** What the component renders. */
  datatype Page = PostPage(blogId: string) | ListPage

  /** The render guard: `currentView === 'post' && selectedBlogId`. */
  function Render(s: BlogState): (p: Page)
    ensures p.PostPage? ==> s.view == PostView && s.selected == Some(p.blogId) && p.blogId != ""
    ensures s.view == PostView && Truthy(s.selected) ==> p.PostPage?
  {
    if s.view == PostView && Truthy(s.selected) then PostPage(s.selected.value) else ListPage
  }

  datatype Event = SectionChange | PopstateTo(loc: Location) | SelectPost(id: string) | BackToList

  function Step(s: BlogState, e: Event): BlogState {
    match e
    case SectionChange => Sync(s)
    case PopstateTo(loc) => Popstate(s, loc)
    case SelectPost(id) => Select(s, id)
    case BackToList => Back(s)
  }

  /** Mount runs the URL check and the popstate handler's initial call, then the events in order. */
  function Run(loc: Location, stored: Option<string>, events: seq<Event>): BlogState
  {
    if events == [] then Sync(Sync(Initial(loc, stored)))
    else Step(Run(loc, stored, events[..|events| - 1]), events[|events| - 1])
  }

  /**
   * After mount and any sequence of events, the view and the selection agree,
   * the storage key mirrors the selection, and a post page is rendered only
   * for the selected id.
   */
  lemma {:induction false} RunKeepsInvariant(loc: Location, stored: Option<string>, events: seq<Event>)
    ensures var s := Run(loc, stored, events);
            ViewConsistent(s) && StorageMirrors(s)
            && (Render(s).PostPage? ==> s.selected == Some(Render(s).blogId))
  {
    if events != [] {
      RunKeepsInvariant(loc, stored, events[..|events| - 1]);
    }
  }
}

=== FILE: nav_header.dfy ===
/**
 * Section links of the header navigation
 * (src/components/nav/partials/NavHeaderMain.jsx).
 */
module NavHeader {
  import opened Wrappers
  import opened Strings

  datatype NavLink = NavLink(caption: string, href: string)

  /** `id.charAt(0).toUpperCase() + id.slice(1)`. */
  function Capitalize(id: string): (r: string)
    ensures |r| == |id|
    ensures id != "" ==> r[0] == UpperChar(id[0]) && r[1..] == id[1..]
  {
    if id == "" then "" else [UpperChar(id[0])] + id[1..]
  }

  function Href(id: string): (r: string)
    ensures |r| == |id| + 1 && r[0] == '#' && r[1..] == id
  {
    "#" + id
  }

  /** One link per section, in section order; no data gives no links. */
  function SectionLinks(sections: Option<seq<string>>): (r: seq<NavLink>)
    ensures sections.None? ==> r == []
    ensures sections.Some? ==> |r| == |sections.value|
    ensures sections.Some? ==> forall i :: 0 <= i < |r| ==>
              |r[i].href| == |sections.value[i]| + 1
              && r[i].href[1..] == sections.value[i] && r[i].href[0] == '#'
              && |r[i].caption| == |sections.value[i]|
  {
    if sections.None? then [] else LinksOf(sections.value)
  }

  function LinksOf(ids: seq<string>): (r: seq<NavLink>)
    ensures |r| == |ids|
    ensures forall i :: 0 <= i < |ids| ==> r[i] == NavLink(Capitalize(ids[i]), Href(ids[i]))
  {
    if ids == [] then [] else [NavLink(Capitalize(ids[0]), Href(ids[0]))] + LinksOf(ids[1..])
  }

  /** The `--active` modifier of each item: its href equals `activeHref` exactly. */
  function ActiveFlags(links: seq<NavLink>, activeHref: string): (r: seq<bool>)
    ensures |r| == |links|
    ensures forall i :: 0 <= i < |links| ==> (r[i] <==> links[i].href == activeHref)
  {
    if links == [] then [] else [links[0].href == activeHref] + ActiveFlags(links[1..], activeHref)
  }

  /** An item is active exactly when `activeHref` is `#` followed by its section id. */
  lemma ActiveIffHashOfId(ids: seq<string>, activeHref: string, i: nat)
    requires i < |ids|
    ensures ActiveFlags(SectionLinks(Some(ids)), activeHref)[i] <==> activeHref == "#" + ids[i]
  {
  }

  /** With distinct section ids, at most one item is active. */
  lemma AtMostOneActive(ids: seq<string>, activeHref: string, i: nat, j: nat)
    requires forall a, b :: 0 <= a < b < |ids| ==> ids[a] != ids[b]
    requires i < |ids| && j < |ids|
    requires ActiveFlags(SectionLinks(Some(ids)), activeHref)[i]
    requires ActiveFlags(SectionLinks(Some(ids)), activeHref)[j]
    ensures i == j
  {
    var links := SectionLinks(Some(ids));
    assert links[i].href == activeHref == links[j].href;
    assert ids[i] == links[i].href[1..] == links[j].href[1..] == ids[j];
  }
}

=== FILE: navbar.dfy ===
/**
 * Static-page navbar highlighting (assets/js/components/navbar.js): the
 * page is detected from the pathname, then each link is marked active iff
 * its trimmed, lower-cased text names that page.
 */
module Navbar {
  import opened Strings

  /** The keywords looked for in the pathname, in order of precedence. */
  const Keywords: seq<string> := ["resume", "portfolio", "blog", "contact"]

  const DefaultPage := "about"

  /** `currentPage`: the first keyword the pathname contains, else `about`. */
  function DetectPage(path: string): (r: string)
    ensures r in Keywords || r == DefaultPage
    ensures r == DefaultPage <==> forall k :: 0 <= k < |Keywords| ==> !Contains(path, Keywords[k])
    ensures r != DefaultPage ==>
              exists i :: 0 <= i < |Keywords| && Keywords[i] == r && Contains(path, r)
                          && forall j :: 0 <= j < i ==> !Contains(path, Keywords[j])
  {
    if Contains(path, "resume") then "resume"
    else if Contains(path, "portfolio") then "portfolio"
    else if Contains(path, "blog") then "blog"
    else if Contains(path, "contact") then "contact"
    else DefaultPage
  }

  datatype Link = Link(text: string, active: bool)

  /** `link.textContent.trim().toLowerCase()`. */
  function LinkName(text: string): string {
    ToLower(Trim(text))
  }

  /** `run`: with no links nothing happens; otherwise the `active` class is recomputed on every link. */
  function Run(path: string, links: seq<Link>): (r: seq<Link>)
    ensures links == [] ==> r == links
    ensures |r| == |links|
    ensures forall i :: 0 <= i < |links| ==>
              r[i].text == links[i].text && (r[i].active <==> LinkName(links[i].text) == DetectPage(path))
  {
    if links == [] then links else Mark(DetectPage(path), links)
  }

  function Mark(page: string, links: seq<Link>): (r: seq<Link>)
    ensures |r| == |links|
    ensures forall i :: 0 <= i < |links| ==> r[i] == Link(links[i].text, LinkName(links[i].text) == page)
  {
    seq(|links|, i requires 0 <= i < |links| => Link(links[i].text, LinkName(links[i].text) == page))
  }

  /** Running twice gives the same marks as running once. */
  lemma RunIdempotent(path: string, links: seq<Link>)
    ensures Run(path, Run(path, links)) == Run(path, links)
  {
  }

  /** The result does not depend on which links were active before. */
  lemma RunIgnoresPreviousMarks(path: string, a: seq<Link>, b: seq<Link>)
    requires |a| == |b| && a != []
    requires forall i :: 0 <= i < |a| ==> a[i].text == b[i].text
    ensures Run(path, a) == Run(path, b)
  {
  }

  /** The keyword that comes first in the precedence list wins, whatever its position in the path. */
  lemma PrecedenceExample()
    ensures DetectPage("/blog/resume.html") == "resume"
    ensures DetectPage("/index.html") == DefaultPage
  {
    ContainsAt("/blog/resume.html", "resume", 6);
    NoKeyword("/index.html");
  }

  lemma NoKeyword(path: string)
    requires forall i :: 0 <= i < |path| ==> path[i] !in "rpbc"
    ensures DetectPage(path) == DefaultPage
  {
    forall k | 0 <= k < |Keywords| ensures !Contains(path, Keywords[k]) {
      NoStartingChar(path, Keywords[k]);
    }
  }

  lemma {:induction false} NoStartingChar(path: string, word: string)
    requires word != [] && forall i :: 0 <= i < |path| ==> path[i] != word[0]
    ensures !Contains(path, word)
  {
    if path != [] {
      assert !StartsWith(path, word) by {
        if |word| <= |path| { assert path[..|word|][0] == path[0]; }
      }
      NoStartingChar(path[1..], word);
    }
  }
}

=== FILE: portfolio_filter.dfy ===
/**
 * The portfolio category filter (assets/js/pages/portfolio.js).
 *
 * A filter item is its `data-category` and its `active` class; a filter
 * button is its text and its `active` class.
 */
module PortfolioFilter {
  import opened Strings

  const ShowAll := "all"

  datatype FilterItem = FilterItem(category: string, active: bool)

  /** `filterFunc(value)`: `all` shows everything, any other value the items of exactly that category. */
  function FilterFunc(value: string, items: seq<FilterItem>): (r: seq<FilterItem>)
    ensures |r| == |items|
    ensures forall i :: 0 <= i < |items| ==>
              r[i].category == items[i].category
              && (r[i].active <==> value == ShowAll || value == items[i].category)
  {
    if items == [] then []
    else [items[0].(active := value == ShowAll || value == items[0].category)] + FilterFunc(value, items[1..])
  }

  /** Filtering twice with the same value is filtering once. */
  lemma FilterIdempotent(value: string, items: seq<FilterItem>)
    ensures FilterFunc(value, FilterFunc(value, items)) == FilterFunc(value, items)
  {
  }

  /** The outcome does not depend on the previous `active` flags. */
  lemma FilterIgnoresPreviousFlags(value: string, a: seq<FilterItem>, b: seq<FilterItem>)
    requires |a| == |b| && forall i :: 0 <= i < |a| ==> a[i].category == b[i].category
    ensures FilterFunc(value, a) == FilterFunc(value, b)
  {
  }

  /**
   * A click on a dropdown entry or a filter button filters by the clicked
   * text lower-cased. With no filter items the script does nothing.
   */
  function ClickValue(text: string, items: seq<FilterItem>): (r: seq<FilterItem>)
    ensures items == [] ==> r == []
    ensures |r| == |items|
    ensures forall i :: 0 <= i < |items| ==>
              (r[i].active <==> ToLower(text) == ShowAll || ToLower(text) == items[i].category)
    ensures forall i :: 0 <= i < |items| ==> r[i].category == items[i].category
  {
    if items == [] then items else FilterFunc(ToLower(text), items)
  }

  /**
   * Categories are compared as written while the clicked text is lower-cased:
   * a category holding an upper-case letter is only ever shown by `all`.
   */
  lemma UpperCaseCategoryOnlyShownByAll(text: string, items: seq<FilterItem>, i: nat, c: nat)
    requires i < |items| && c < |items[i].category| && IsUpper(items[i].category[c])
    requires ToLower(text) != ShowAll
    ensures !ClickValue(text, items)[i].active
  {
  }

  /** The button that receives `classList.remove` on the next click. */
  datatype LastClicked = AllButtons | Button(index: nat)

  datatype FilterPage = FilterPage(items: seq<FilterItem>, buttons: seq<bool>, last: LastClicked)

  /**
   * A click on filter button `i`, as written: the items are filtered, then
   * `lastClickedBtn.classList.remove` runs. `lastClickedBtn` starts as the
   * whole button list, which has no `classList`, so the handler throws there:
   * the button marks and `lastClickedBtn` never change.
   */
  function ClickButtonAsWritten(p: FilterPage, i: nat, text: string): (r: FilterPage)
    requires i < |p.buttons|
    ensures r.items == ClickValue(text, p.items)
    ensures |r.buttons| == |p.buttons|
    ensures p.last == AllButtons ==> r.buttons == p.buttons && r.last == AllButtons
  {
    var items := ClickValue(text, p.items);
    match p.last
    case AllButtons => p.(items := items)
    case Button(j) =>
      var cleared := if j < |p.buttons| then p.buttons[j := false] else p.buttons;
      FilterPage(items, cleared[i := true], Button(i))
  }

  function InitialAsWritten(items: seq<FilterItem>, buttons: seq<bool>): FilterPage {
    FilterPage(items, buttons, AllButtons)
  }

  /** As written, no sequence of button clicks ever moves the highlight. */
  lemma {:induction false} AsWrittenHighlightNeverMoves(p: FilterPage, clicks: seq<(nat, string)>)
    requires p.last == AllButtons
    requires forall k :: 0 <= k < |clicks| ==> clicks[k].0 < |p.buttons|
    ensures ClickAllAsWritten(p, clicks).buttons == p.buttons
    decreases |clicks|
  {
    if clicks != [] {
      var q := ClickButtonAsWritten(p, clicks[0].0, clicks[0].1);
      assert forall k :: 0 <= k < |clicks[1..]| ==> clicks[1..][k] == clicks[k + 1];
      AsWrittenHighlightNeverMoves(q, clicks[1..]);
    }
  }

  function ClickAllAsWritten(p: FilterPage, clicks: seq<(nat, string)>): FilterPage
    decreases |clicks|
  {
    if clicks == [] || clicks[0].0 >= |p.buttons| then p
    else ClickAllAsWritten(ClickButtonAsWritten(p, clicks[0].0, clicks[0].1), clicks[1..])
  }

  /** A concrete click that leaves the "All" button highlighted after choosing another filter. */
  lemma AsWrittenCounterexample()
    ensures var p := InitialAsWritten([FilterItem("web", true)], [true, false]);
            ClickButtonAsWritten(p, 1, "Web").buttons == [true, false]
  {
  }

  /** The intended start: the first button (the one marked active in the page) is the last clicked. */
  function InitialCorrected(items: seq<FilterItem>, buttons: seq<bool>): FilterPage {
    FilterPage(items, buttons, if buttons == [] then AllButtons else Button(0))
  }

  /** Exactly the last clicked button carries the highlight. */
  predicate OnlyLastHighlighted(p: FilterPage) {
    p.last.Button? && p.last.index < |p.buttons|
    && forall k :: 0 <= k < |p.buttons| ==> (p.buttons[k] <==> k == p.last.index)
  }

  /** A click with a real last-clicked button: the highlight moves to the clicked button. */
  function ClickButtonCorrected(p: FilterPage, i: nat, text: string): (r: FilterPage)
    requires i < |p.buttons|
    requires p.last.Button? && p.last.index < |p.buttons|
    ensures r.items == ClickValue(text, p.items)
    ensures |r.buttons| == |p.buttons|
    ensures r.last == Button(i) && r.buttons[i]
    ensures p.last.index != i ==> !r.buttons[p.last.index]
    ensures OnlyLastHighlighted(p) ==> OnlyLastHighlighted(r)
  {
    ClickButtonAsWritten(p, i, text)
  }

  /** With the intended start, the first click already moves the highlight. */
  lemma CorrectedFirstClickMovesHighlight()
    ensures var p := InitialCorrected([FilterItem("web", true)], [true, false]);
            ClickButtonCorrected(p, 1, "Web").buttons == [false, true]
  {
  }
}

=== FILE: sidebar_state.dfy ===
/**
 * Per-section sidebar state (src/providers/SidebarStateProvider.jsx).
 *
 * The provider's state is one record: the section-to-expanded map, the
 * current `sidebarExpanded`, the location's current section (`""` when
 * falsy), the copy stored under `section-sidebar-states`, and the log of
 * `sidebar-state-change` events dispatched.
 *
 * The section-change effect depends on both the current section and the
 * map, and every update builds a fresh map object, so it runs again after
 * each toggle and each set: `Refresh` is that effect.
 */
module SidebarState {
  import opened Wrappers

  const DefaultKey := "default"

  /** The map used when nothing is stored: the blog collapsed, everything else expanded. */
  const DefaultStates: map<string, bool> := map["blog" := false, DefaultKey := true]

  datatype State = State(
    states: map<string, bool>,
    expanded: bool,
    current: string,
    stored: Option<map<string, bool>>,
    events: seq<bool>)

  /**
   * The effective state of a section: its own entry when defined, else the
   * `default` entry. A stored map without `default` yields `undefined`,
   * which is falsy and modelled as `false`.
   */
  function Effective(states: map<string, bool>, section: string): (r: bool)
    ensures section in states ==> r == states[section]
    ensures section !in states && DefaultKey in states ==> r == states[DefaultKey]
  {
    if section in states then states[section]
    else if DefaultKey in states then states[DefaultKey]
    else false
  }

  /** The expanded flag agrees with the current section's effective state. */
  predicate Synced(s: State) {
    s.current != "" ==> s.expanded == Effective(s.states, s.current)
  }

  /** The stored copy, when there is one, equals the map in memory. */
  predicate StoredMirrors(s: State) {
    s.stored.None? || s.stored.value == s.states
  }

  /** The last event dispatched carries the current expanded flag. */
  predicate EventsTrack(s: State) {
    s.events != [] ==> s.events[|s.events| - 1] == s.expanded
  }

  predicate Valid(s: State) {
    Synced(s) && StoredMirrors(s) && EventsTrack(s)
  }

  /** The section-change effect: with a current section, adopt and announce its effective state. */
  function Refresh(s: State): (r: State)
    ensures r.states == s.states && r.current == s.current && r.stored == s.stored
    ensures s.current == "" ==> r == s
    ensures s.current != "" ==> r.expanded == Effective(s.states, s.current)
                                && r.events == s.events + [r.expanded]
  {
    if s.current != "" then
      var e := Effective(s.states, s.current);
      s.(expanded := e, events := s.events + [e])
    else s
  }

  /** Mount: the stored map if any, else the defaults; `sidebarExpanded` starts true. */
  function Mount(saved: Option<map<string, bool>>, section: string): (r: State)
    ensures r.states == (if saved.Some? then saved.value else DefaultStates)
    ensures section == "" ==> r.expanded
    ensures Valid(r)
  {
    var states := if saved.Some? then saved.value else DefaultStates;
    Refresh(State(states, true, section, saved, []))
  }

  /** The location moves to `section`; the effect runs if the section differs. */
  function ChangeSection(s: State, section: string): (r: State)
    ensures r.current == section && r.states == s.states && r.stored == s.stored
    ensures section == "" ==> r == s.(current := "")
    ensures Valid(s) ==> Valid(r)
  {
    if section == s.current then s else Refresh(s.(current := section))
  }

  /** `toggleSidebarForCurrentSection`. */
  function Toggle(s: State): (r: State)
    ensures r.current == s.current
    ensures s.current == "" ==> r == s
    ensures s.current != "" ==>
              && r.states == s.states[s.current := !s.expanded]
              && r.expanded == !s.expanded
              && r.stored == Some(r.states)
              && r.events == s.events + [!s.expanded, !s.expanded]
    ensures forall k :: k != s.current ==>
              (k in r.states <==> k in s.states) && (k in s.states ==> r.states[k] == s.states[k])
    ensures Valid(s) ==> Valid(r)
  {
    if s.current == "" then s
    else
      var m := s.states[s.current := !s.expanded];
      Refresh(s.(states := m, stored := Some(m), expanded := !s.expanded,
                 events := s.events + [!s.expanded]))
  }

  /** `setSidebarStateForSection(section, expanded)`. */
  function SetForSection(s: State, section: string, expanded: bool): (r: State)
    ensures r.current == s.current
    ensures section == "" ==> r == s
    ensures section != "" ==> r.states == s.states[section := expanded] && r.stored == Some(r.states)
    ensures section != "" && section == s.current ==> r.expanded == expanded
    ensures forall k :: k != section ==>
              (k in r.states <==> k in s.states) && (k in s.states ==> r.states[k] == s.states[k])
    ensures Valid(s) ==> Valid(r)
  {
    if section == "" then s
    else
      var m := s.states[section := expanded];
      var s1 := s.(states := m, stored := Some(m));
      var s2 := if section == s.current then s1.(expanded := expanded, events := s1.events + [expanded]) else s1;
      Refresh(s2)
  }

  /**
   * Setting another section's state leaves the current expanded flag alone,
   * unless that section is `default` and the current section has no entry of
   * its own: then the re-run effect adopts the new default.
   */
  lemma SetOtherSectionKeepsExpanded(s: State, section: string, expanded: bool)
    requires Synced(s) && section != s.current
    requires section != DefaultKey || s.current in s.states
    ensures SetForSection(s, section, expanded).expanded == s.expanded
  {
  }

  /** Setting `default` does move the flag of a current section without an entry. */
  lemma SetDefaultMovesCurrent()
    ensures var s := Mount(None, "about");
            s.expanded && !SetForSection(s, DefaultKey, false).expanded
  {
  }

  /** Two toggles in the same section restore the flag and that section's effective state. */
  lemma ToggleTwiceRestores(s: State)
    requires Synced(s)
    ensures Toggle(Toggle(s)).expanded == s.expanded
    ensures Toggle(Toggle(s)).current == s.current
    ensures s.current != "" ==>
              Effective(Toggle(Toggle(s)).states, s.current) == Effective(s.states, s.current)
  {
  }

  datatype Op = Section(name: string) | ToggleCurrent | SetSection(name: string, expanded: bool)

  function Apply(s: State, op: Op): State {
    match op
    case Section(name) => ChangeSection(s, name)
    case ToggleCurrent => Toggle(s)
    case SetSection(name, e) => SetForSection(s, name, e)
  }

  /** Every change of the expanded flag is announced with the new value. */
  lemma ChangesAreAnnounced(s: State, op: Op)
    ensures var t := Apply(s, op);
            t.expanded != s.expanded ==>
              |t.events| > |s.events| && t.events[|t.events| - 1] == t.expanded
  {
  }

  function RunOps(s: State, ops: seq<Op>): State
    decreases |ops|
  {
    if ops == [] then s else RunOps(Apply(s, ops[0]), ops[1..])
  }

  /** From mount on, every sequence of operations keeps the state valid. */
  lemma {:induction false} RunOpsValid(s: State, ops: seq<Op>)
    requires Valid(s)
    ensures Valid(RunOps(s, ops))
    decreases |ops|
  {
    if ops != [] {
      RunOpsValid(Apply(s, ops[0]), ops[1..]);
    }
  }
}

=== FILE: strings.dfy ===
/**
 * Small string helpers shared by the model. Strings are sequences of
 * characters; upper/lower casing and trimming are the ASCII part of the
 * JavaScript built-ins.
 */
module Strings {

  predicate StartsWith(s: string, prefix: string) {
    |prefix| <= |s| && s[..|prefix|] == prefix
  }

  predicate EndsWith(s: string, suffix: string) {
    |suffix| <= |s| && s[|s| - |suffix|..] == suffix
  }

  /** `s.includes(sub)`: `sub` occurs somewhere in `s`. */
  predicate Contains(s: string, sub: string) {
    StartsWith(s, sub) || (s != [] && Contains(s[1..], sub))
  }

  /** An occurrence at a known position makes `Contains` hold. */
  lemma {:induction false} ContainsAt(s: string, sub: string, i: nat)
    requires i + |sub| <= |s| && s[i..i + |sub|] == sub
    ensures Contains(s, sub)
  {
    if i > 0 {
      assert s[1..][i - 1..i - 1 + |sub|] == sub;
      ContainsAt(s[1..], sub, i - 1);
    }
  }

  lemma ContainsNonEmpty(s: string, sub: string)
    requires Contains(s, sub) && sub != ""
    ensures s != ""
  {
  }

  /** `s.indexOf(c)` for a character known to occur: the first position of `c`. */
  function IndexOf(s: string, c: char): (i: nat)
    requires c in s
    ensures i < |s| && s[i] == c
    ensures forall j :: 0 <= j < i ==> s[j] != c
  {
    if s[0] == c then 0 else 1 + IndexOf(s[1..], c)
  }

  function LowerChar(c: char): char {
    if 'A' <= c <= 'Z' then (c as int + 32) as char else c
  }

  function UpperChar(c: char): char {
    if 'a' <= c <= 'z' then (c as int - 32) as char else c
  }

  predicate IsUpper(c: char) {
    'A' <= c <= 'Z'
  }

  /** `s.toLowerCase()` restricted to ASCII letters. */
  function ToLower(s: string): (r: string)
    ensures |r| == |s|
    ensures forall i :: 0 <= i < |s| ==> r[i] == LowerChar(s[i])
  {
    if s == [] then [] else [LowerChar(s[0])] + ToLower(s[1..])
  }

  /** The characters `String.prototype.trim` removes, restricted to ASCII. */
  predicate IsSpace(c: char) {
    c == ' ' || c == '\t' || c == '\n' || c == '\r' || c == '\U{0B}' || c == '\U{0C}'
  }

  /** The first position at or after `i` that holds no white space, or `|s|`. */
  function SkipSpaces(s: string, i: nat): (k: nat)
    requires i <= |s|
    ensures i <= k <= |s|
    ensures forall j :: i <= j < k ==> IsSpace(s[j])
    ensures k < |s| ==> !IsSpace(s[k])
    decreases |s| - i
  {
    if i < |s| && IsSpace(s[i]) then SkipSpaces(s, i + 1) else i
  }

  /** The end of `s[..i]` once its trailing white space is dropped. */
  function SkipSpacesBack(s: string, i: nat): (k: nat)
    requires i <= |s|
    ensures k <= i
    ensures forall j :: k <= j < i ==> IsSpace(s[j])
    ensures k > 0 ==> !IsSpace(s[k - 1])
  {
    if i > 0 && IsSpace(s[i - 1]) then SkipSpacesBack(s, i - 1) else i
  }

  function TrimStart(s: string): (r: string)
    ensures EndsWith(s, r)
    ensures r == [] || !IsSpace(r[0])
    ensures forall i :: 0 <= i < |s| - |r| ==> IsSpace(s[i])
  {
    s[SkipSpaces(s, 0)..]
  }

  function TrimEnd(s: string): (r: string)
    ensures StartsWith(s, r)
    ensures r == [] || !IsSpace(r[|r| - 1])
    ensures forall i :: |r| <= i < |s| ==> IsSpace(s[i])
  {
    s[..SkipSpacesBack(s, |s|)]
  }

  /** `s.trim()`: the longest infix of `s` with no surrounding white space (see `TrimIsInfix`). */
  function Trim(s: string): (r: string)
    ensures r == [] || (!IsSpace(r[0]) && !IsSpace(r[|r| - 1]))
  {
    TrimEnd(TrimStart(s))
  }

  /**
   * `trim` cuts only white space: its result is the infix of `s` starting
   * where `TrimStart` starts, with only white space before and after it.
   */
  lemma TrimIsInfix(s: string)
    ensures var lead := |s| - |TrimStart(s)|;
            && lead + |Trim(s)| <= |s| && Trim(s) == s[lead..lead + |Trim(s)|]
            && (forall i :: 0 <= i < lead ==> IsSpace(s[i]))
            && (forall i :: lead + |Trim(s)| <= i < |s| ==> IsSpace(s[i]))
  {
    CutInfix(s, TrimStart(s), Trim(s));
  }

  /**
   * Cutting white space off the front (`s` to its suffix `t`) and then off
   * the back (`t` to its prefix `r`) leaves an infix of `s` with white space
   * only around it.
   */
  lemma CutInfix(s: string, t: string, r: string)
    requires EndsWith(s, t) && forall i :: 0 <= i < |s| - |t| ==> IsSpace(s[i])
    requires StartsWith(t, r) && forall i :: |r| <= i < |t| ==> IsSpace(t[i])
    ensures var lead := |s| - |t|;
            && lead + |r| <= |s| && r == s[lead..lead + |r|]
            && (forall i :: 0 <= i < lead ==> IsSpace(s[i]))
            && (forall i :: lead + |r| <= i < |s| ==> IsSpace(s[i]))
  {
    var lead := |s| - |t|;
    assert t == s[lead..];
    assert s[lead..][..|r|] == s[lead..lead + |r|];
    forall i | lead + |r| <= i < |s| ensures IsSpace(s[i]) {
      assert s[i] == s[lead..][i - lead];
    }
  }

  /** A text that does not start with `short` does not start with any `long` that begins with `short`. */
  lemma NotPrefixOfLonger(s: string, short: string, long: string)
    requires StartsWith(long, short) && !StartsWith(s, short)
    ensures !StartsWith(s, long)
  {
    if |long| <= |s| {
      assert s[..|short|] == s[..|long|][..|short|];
    }
  }

  /** Joins `parts` with `sep` between neighbours, as `Array.prototype.join`. */
  function Join(parts: seq<string>, sep: string): (r: string)
  {
    if |parts| == 0 then ""
    else if |parts| == 1 then parts[0]
    else Join(parts[..|parts| - 1], sep) + sep + parts[|parts| - 1]
  }

  /** Splits `s` at every occurrence of `sep`. */
  function SplitOn(s: string, sep: char): (r: seq<string>)
    ensures |r| >= 1
    ensures forall i :: 0 <= i < |r| ==> sep !in r[i]
    ensures sep !in s ==> r == [s]
    decreases |s|
  {
    if sep !in s then [s]
    else
      var i := IndexOf(s, sep);
      [s[..i]] + SplitOn(s[i + 1..], sep)
  }

  /** A join with more than one part is its first part, the separator and the join of the rest. */
  lemma {:induction false} JoinFront(parts: seq<string>, sep: string)
    requires |parts| >= 2
    ensures Join(parts, sep) == parts[0] + sep + Join(parts[1..], sep)
  {
    if |parts| > 2 {
      JoinFront(parts[..|parts| - 1], sep);
      assert parts[..|parts| - 1][1..] == parts[1..][..|parts[1..]| - 1];
      assert parts[1..][|parts[1..]| - 1] == parts[|parts| - 1];
    }
  }

  /** Splitting a join on a separator that no part contains gives the parts back. */
  lemma {:induction false} SplitJoin(parts: seq<string>, sep: char)
    requires parts != []
    requires forall i :: 0 <= i < |parts| ==> sep !in parts[i]
    ensures SplitOn(Join(parts, [sep]), sep) == parts
    decreases |parts|
  {
    if |parts| >= 2 {
      JoinFront(parts, [sep]);
      SplitAtFirst(parts[0], sep, Join(parts[1..], [sep]));
      SplitJoin(parts[1..], sep);
    }
  }

  /** A text without the separator, the separator, then the rest: the first piece is that text. */
  lemma SplitAtFirst(a: string, sep: char, rest: string)
    requires sep !in a
    ensures SplitOn(a + [sep] + rest, sep) == [a] + SplitOn(rest, sep)
  {
    var s := a + [sep] + rest;
    assert s[|a|] == sep;
    assert forall j :: 0 <= j < |a| ==> s[j] == a[j];
    assert IndexOf(s, sep) == |a|;
    assert s[..|a|] == a;
    assert s[|a| + 1..] == rest;
  }
}

=== FILE: table_of_contents.dfy ===
/**
 * Table-of-contents state (src/components/blogpost/TableOfContents.jsx): the
 * active section and the sticky flag computed on each scroll, and the
 * rendered entries. The page is the map `tops` from element id to the top of
 * its bounding rectangle; an id absent from the map has no element.
 */
module TableOfContents {
  import opened Wrappers

  datatype Section = Section(id: string, title: string, content: string)

  /** A section counts as scrolled past once its top is at most this far down. */
  const ActiveThreshold := 100

  /** The sidebar sticks once its top is at most this far down. */
  const StickyThreshold := 20

  /** `document.getElementById(id)` finds an element; the empty id never matches. */
  predicate HasElement(tops: map<string, int>, id: string) {
    id != "" && id in tops
  }

  predicate Qualifies(tops: map<string, int>, id: string) {
    HasElement(tops, id) && tops[id] <= ActiveThreshold
  }

  /**
   * Reference definition of the scan position: the last index in list order
   * whose section has an element that has scrolled past the threshold, or -1.
   */
  function LastIndex(ids: seq<string>, tops: map<string, int>): (r: int)
    ensures -1 <= r < |ids|
    ensures r >= 0 ==> Qualifies(tops, ids[r])
    ensures forall j :: r < j < |ids| ==> !Qualifies(tops, ids[j])
  {
    if ids == [] then -1
    else if Qualifies(tops, ids[|ids| - 1]) then |ids| - 1
    else
      var r := LastIndex(ids[..|ids| - 1], tops);
      assert forall j :: 0 <= j < |ids| - 1 ==> ids[..|ids| - 1][j] == ids[j];
      r
  }

  /** The active section: the id at `LastIndex`, or `''` when no section qualifies. */
  function LastQualifying(ids: seq<string>, tops: map<string, int>): (r: string)
    ensures r == "" <==> forall j :: 0 <= j < |ids| ==> !Qualifies(tops, ids[j])
    ensures r != "" ==> r in ids && Qualifies(tops, r)
  {
    var k := LastIndex(ids, tops);
    if k < 0 then "" else ids[k]
  }

  function Ids(sections: seq<Section>): (r: seq<string>)
    ensures |r| == |sections|
    ensures forall i :: 0 <= i < |r| ==> r[i] == sections[i].id
  {
    if sections == [] then [] else [sections[0].id] + Ids(sections[1..])
  }

  /** `sectionElements`: the ids that have an element, in list order. */
  function WithElements(ids: seq<string>, tops: map<string, int>): (r: seq<string>)
    ensures forall i :: 0 <= i < |r| ==> HasElement(tops, r[i])
    ensures forall x :: x in r ==> x in ids
  {
    if ids == [] then []
    else if HasElement(tops, ids[|ids| - 1]) then WithElements(ids[..|ids| - 1], tops) + [ids[|ids| - 1]]
    else WithElements(ids[..|ids| - 1], tops)
  }

  /** Every id that has an element survives the filter. */
  lemma {:induction false} WithElementsKeepsAll(ids: seq<string>, tops: map<string, int>)
    ensures forall x :: x in ids && HasElement(tops, x) ==> x in WithElements(ids, tops)
  {
    if ids != [] {
      var prefix := ids[..|ids| - 1];
      assert ids == prefix + [ids[|ids| - 1]];
      WithElementsKeepsAll(prefix, tops);
    }
  }

  /** The filter works id by id, so the kept ids stay in list order. */
  lemma {:induction false} WithElementsConcat(a: seq<string>, b: seq<string>, tops: map<string, int>)
    ensures WithElements(a + b, tops) == WithElements(a, tops) + WithElements(b, tops)
    decreases |b|
  {
    if b == [] {
      assert a + b == a;
    } else {
      var b' := b[..|b| - 1];
      var last := b[|b| - 1];
      assert (a + b)[..|a + b| - 1] == a + b';
      assert (a + b)[|a + b| - 1] == last;
      WithElementsConcat(a, b', tops);
    }
  }

  /** Dropping the sections without an element does not change the choice. */
  lemma {:induction false} FilterKeepsChoice(ids: seq<string>, tops: map<string, int>)
    ensures LastQualifying(WithElements(ids, tops), tops) == LastQualifying(ids, tops)
  {
    if ids != [] {
      var prefix := ids[..|ids| - 1];
      FilterKeepsChoice(prefix, tops);
      var last := ids[|ids| - 1];
      if HasElement(tops, last) {
        var w := WithElements(prefix, tops) + [last];
        assert w[..|w| - 1] == WithElements(prefix, tops);
      }
    }
  }

  /**
   * The scan of `handleScroll`: filter, then walk back from the end and stop
   * at the first section whose top is at most the threshold.
   */
  method ActiveSection(sections: seq<Section>, tops: map<string, int>) returns (active: string)
    ensures active == LastQualifying(Ids(sections), tops)
  {
    var present := WithElements(Ids(sections), tops);
    FilterKeepsChoice(Ids(sections), tops);
    active := ScanBack(present, tops);
  }

  /** The backward walk over ids that all have an element, stopping at the first hit. */
  method ScanBack(present: seq<string>, tops: map<string, int>) returns (active: string)
    requires forall k :: 0 <= k < |present| ==> HasElement(tops, present[k])
    ensures active == LastQualifying(present, tops)
  {
    active := "";
    var i := |present|;
    while i > 0 && active == ""
      invariant 0 <= i <= |present|
      invariant active == "" ==> LastQualifying(present[..i], tops) == LastQualifying(present, tops)
      invariant active != "" ==> active == LastQualifying(present, tops)
    {
      var id := present[i - 1];
      ScanStep(present, i, tops);
      if tops[id] <= ActiveThreshold {
        active := id;
      }
      i := i - 1;
    }
    if active == "" {
      assert present[..i] == [];
    }
  }

  /** The active section is `''` or one of the section ids. */
  lemma ActiveIsAnId(sections: seq<Section>, tops: map<string, int>)
    ensures LastQualifying(Ids(sections), tops) == "" || LastQualifying(Ids(sections), tops) in Ids(sections)
  {
  }

  lemma ScanStep(ids: seq<string>, i: nat, tops: map<string, int>)
    requires 0 < i <= |ids|
    ensures Qualifies(tops, ids[i - 1]) ==> LastQualifying(ids[..i], tops) == ids[i - 1]
    ensures !Qualifies(tops, ids[i - 1]) ==> LastQualifying(ids[..i], tops) == LastQualifying(ids[..i - 1], tops)
  {
    assert ids[..i][..i - 1] == ids[..i - 1];
    assert ids[..i][i - 1] == ids[i - 1];
  }

  /** The scan depends on list order, not on which top is smallest. */
  lemma OrderNotOffset()
    ensures LastQualifying(["s1", "s2", "s3"], map["s1" := 150, "s2" := 80, "s3" := 30]) == "s3"
    ensures LastQualifying(["s1", "s2", "s3"], map["s1" := 150, "s2" := 30, "s3" := 80]) == "s3"
  {
  }

  /** The threshold is inclusive. */
  lemma ThresholdInclusive(id: string)
    requires id != ""
    ensures LastQualifying([id], map[id := ActiveThreshold]) == id
    ensures LastQualifying([id], map[id := ActiveThreshold + 1]) == ""
  {
  }

  /** The sticky flag: recomputed from the sidebar's top when the sidebar exists, kept otherwise. */
  function Sticky(previous: bool, sidebarTop: Option<int>): (r: bool)
    ensures sidebarTop.None? ==> r == previous
    ensures sidebarTop.Some? ==> (r <==> sidebarTop.value <= StickyThreshold)
  {
    match sidebarTop
    case None => previous
    case Some(top) => top <= StickyThreshold
  }

  datatype Entry = Entry(id: string, title: string, active: bool)

  /** The rendered list: `None` when there are no sections. */
  function Entries(sections: seq<Section>, activeSection: string): (r: Option<seq<Entry>>)
    ensures r.None? <==> sections == []
    ensures r.Some? ==> |r.value| == |sections|
    ensures r.Some? ==> forall i :: 0 <= i < |sections| ==>
              r.value[i].id == sections[i].id && r.value[i].title == sections[i].title
              && (r.value[i].active <==> sections[i].id == activeSection)
  {
    if sections == [] then None else Some(EntriesOf(sections, activeSection))
  }

  function EntriesOf(sections: seq<Section>, activeSection: string): (r: seq<Entry>)
    ensures |r| == |sections|
    ensures forall i :: 0 <= i < |sections| ==>
              r[i] == Entry(sections[i].id, sections[i].title, sections[i].id == activeSection)
  {
    if sections == [] then []
    else [Entry(sections[0].id, sections[0].title, sections[0].id == activeSection)]
         + EntriesOf(sections[1..], activeSection)
  }

  /** With distinct ids, at most one entry is highlighted. */
  lemma AtMostOneActive(sections: seq<Section>, activeSection: string, i: nat, j: nat)
    requires forall a, b :: 0 <= a < b < |sections| ==> sections[a].id != sections[b].id
    requires sections != [] && i < |sections| && j < |sections|
    requires Entries(sections, activeSection).value[i].active
    requires Entries(sections, activeSection).value[j].active
    ensures i == j
  {
  }
}

=== FILE: url_query.dfy ===
/**
 * A simplified `URLSearchParams`: an ordered list of name/value pairs with
 * the lookup, set and delete operations of the WHATWG URL Standard
 * (section 6.2), and its string parser without percent-decoding.
 */
module UrlQuery {
  import opened Wrappers
  import opened Strings

  datatype Param = Param(name: string, value: string)

  type Query = seq<Param>

  predicate Has(q: Query, name: string) {
    exists i :: 0 <= i < |q| && q[i].name == name
  }

  /** `get(name)`: the value of the first pair with that name. */
  function Get(q: Query, name: string): (r: Option<string>)
    ensures r.None? <==> !Has(q, name)
    ensures r.Some? ==> exists i :: 0 <= i < |q| && q[i] == Param(name, r.value)
                                    && forall j :: 0 <= j < i ==> q[j].name != name
  {
    if q == [] then None
    else if q[0].name == name then Some(q[0].value)
    else
      var r := Get(q[1..], name);
      assert forall i :: 0 < i < |q| ==> q[i] == q[1..][i - 1];
      r
  }

  /** `delete(name)`: every pair with that name removed, the others kept in order. */
  function Delete(q: Query, name: string): (r: Query)
    ensures !Has(r, name)
    ensures |r| <= |q|
    ensures !Has(q, name) ==> r == q
  {
    if q == [] then []
    else if q[0].name == name then Delete(q[1..], name)
    else [q[0]] + Delete(q[1..], name)
  }

  /** `delete` keeps every pair of another name as often as it occurs, and none of its own. */
  lemma {:induction false} DeleteCounts(q: Query, name: string)
    ensures forall p :: multiset(Delete(q, name))[p] == if p.name == name then 0 else multiset(q)[p]
  {
    if q != [] {
      DeleteCounts(q[1..], name);
      assert q == [q[0]] + q[1..];
    }
  }

  /**
   * `delete` works pair by pair: on a concatenation it is the concatenation
   * of its results, so the kept pairs stay in their original order.
   */
  lemma {:induction false} DeleteConcat(a: Query, b: Query, name: string)
    ensures Delete(a + b, name) == Delete(a, name) + Delete(b, name)
  {
    if a != [] {
      var ab := a + b;
      assert ab[0] == a[0] && ab[1..] == a[1..] + b;
      DeleteConcat(a[1..], b, name);
      if a[0].name != name {
        assert Delete(ab, name) == [a[0]] + Delete(a[1..] + b, name);
        assert [a[0]] + (Delete(a[1..], name) + Delete(b, name))
               == ([a[0]] + Delete(a[1..], name)) + Delete(b, name);
      }
    } else {
      assert a + b == b;
    }
  }

  /** The first pair named `name` gets `value`; the later ones are dropped. */
  function ReplaceFirst(q: Query, name: string, value: string): (r: Query)
    requires Has(q, name)
    decreases |q|
  {
    if q[0].name == name then [Param(name, value)] + Delete(q[1..], name)
    else [q[0]] + ReplaceFirst(q[1..], name, value)
  }

  /** `set(name, value)`: replace the first pair and drop the rest, or append. */
  function Set(q: Query, name: string, value: string): (r: Query)
    ensures Get(r, name) == Some(value)
    ensures !Has(q, name) ==> r == q + [Param(name, value)]
  {
    if Has(q, name) then
      SetGetsValue(q, name, value);
      ReplaceFirst(q, name, value)
    else
      AppendGet(q, Param(name, value), name);
      q + [Param(name, value)]
  }

  /**
   * When `name` is present, `set` puts the new pair where the first one was,
   * keeps every pair before it, and drops the later pairs of that name.
   */
  lemma {:induction false} SetReplacesFirstInPlace(q: Query, name: string, value: string, i: nat)
    requires i < |q| && q[i].name == name
    requires forall j :: 0 <= j < i ==> q[j].name != name
    ensures Set(q, name, value) == q[..i] + [Param(name, value)] + Delete(q[i + 1..], name)
  {
    ReplaceFirstAt(q, name, value, i);
  }

  lemma ReplaceFirstAt(q: Query, name: string, value: string, i: nat)
    requires i < |q| && q[i].name == name
    requires forall j :: 0 <= j < i ==> q[j].name != name
    ensures Has(q, name)
    ensures ReplaceFirst(q, name, value) == q[..i] + [Param(name, value)] + Delete(q[i + 1..], name)
  {
    var b := q[i..];
    assert b[0] == q[i] && b[1..] == q[i + 1..];
    assert Has(b, name);
    assert q == q[..i] + b;
    ReplaceFirstAfter(q[..i], b, name, value);
  }

  /** A prefix without the name is left alone; the replacement happens in the rest. */
  lemma {:induction false} ReplaceFirstAfter(a: Query, b: Query, name: string, value: string)
    requires !Has(a, name) && Has(b, name)
    ensures Has(a + b, name)
    ensures ReplaceFirst(a + b, name, value) == a + ReplaceFirst(b, name, value)
  {
    HasInSuffix(a, b, name);
    if a == [] {
      assert a + b == b;
    } else {
      NoneInTail(a, name);
      ReplaceFirstAfter(a[1..], b, name, value);
      DropFirstOfAppend(a, b);
      ReplaceFirstSkips(a + b, name, value);
      DropFirstOfAppend(a, ReplaceFirst(b, name, value));
    }
  }

  /** Dropping the first element of `a + b` drops it from `a`. */
  lemma DropFirstOfAppend<T>(a: seq<T>, b: seq<T>)
    requires a != []
    ensures (a + b)[0] == a[0] && (a + b)[1..] == a[1..] + b
    ensures [a[0]] + (a[1..] + b) == a + b
  {
    assert a == [a[0]] + a[1..];
  }

  lemma HasInSuffix(a: Query, b: Query, name: string)
    requires Has(b, name)
    ensures Has(a + b, name)
  {
    var k :| 0 <= k < |b| && b[k].name == name;
    assert (a + b)[|a| + k] == b[k];
  }

  lemma NoneInTail(a: Query, name: string)
    requires a != [] && !Has(a, name)
    ensures a[0].name != name && !Has(a[1..], name)
  {
    assert a[0] == a[0];
    forall j | 0 <= j < |a[1..]| ensures a[1..][j].name != name {
      assert a[1..][j] == a[j + 1];
    }
  }

  /** A first pair with another name is kept in front of the replacement. */
  lemma ReplaceFirstSkips(q: Query, name: string, value: string)
    requires Has(q, name) && q[0].name != name
    ensures Has(q[1..], name)
    ensures ReplaceFirst(q, name, value) == [q[0]] + ReplaceFirst(q[1..], name, value)
  {
    var k :| 0 <= k < |q| && q[k].name == name;
    assert q[1..][k - 1] == q[k];
  }

  lemma {:induction false} AppendGet(q: Query, p: Param, name: string)
    requires !Has(q, name) && p.name == name
    ensures Get(q + [p], name) == Some(p.value)
  {
    if q != [] {
      assert (q + [p])[1..] == q[1..] + [p];
      assert !Has(q[1..], name) by {
        forall i | 0 <= i < |q[1..]| ensures q[1..][i].name != name {
          assert q[1..][i] == q[i + 1];
        }
      }
      AppendGet(q[1..], p, name);
    }
  }

  lemma {:induction false} SetGetsValue(q: Query, name: string, value: string)
    requires Has(q, name)
    ensures Get(ReplaceFirst(q, name, value), name) == Some(value)
  {
    if q[0].name != name {
      assert Has(q[1..], name) by {
        var i :| 0 <= i < |q| && q[i].name == name;
        assert q[1..][i - 1] == q[i];
      }
      SetGetsValue(q[1..], name, value);
    }
  }

  /** Deleting `name` leaves every other name's lookup unchanged. */
  lemma {:induction false} DeleteKeepsOthers(q: Query, name: string, other: string)
    requires other != name
    ensures Get(Delete(q, name), other) == Get(q, other)
  {
    if q != [] {
      DeleteKeepsOthers(q[1..], name, other);
    }
  }

  /** Setting `name` leaves every other name's lookup unchanged. */
  lemma {:induction false} SetKeepsOthers(q: Query, name: string, value: string, other: string)
    requires other != name
    ensures Get(Set(q, name, value), other) == Get(q, other)
  {
    if Has(q, name) {
      ReplaceFirstKeepsOthers(q, name, value, other);
    } else {
      AppendKeepsOthers(q, Param(name, value), other);
    }
  }

  lemma {:induction false} ReplaceFirstKeepsOthers(q: Query, name: string, value: string, other: string)
    requires Has(q, name) && other != name
    ensures Get(ReplaceFirst(q, name, value), other) == Get(q, other)
  {
    if q[0].name == name {
      DeleteKeepsOthers(q[1..], name, other);
    } else {
      assert Has(q[1..], name) by {
        var i :| 0 <= i < |q| && q[i].name == name;
        assert q[1..][i - 1] == q[i];
      }
      ReplaceFirstKeepsOthers(q[1..], name, value, other);
    }
  }

  lemma {:induction false} AppendKeepsOthers(q: Query, p: Param, other: string)
    requires p.name != other
    ensures Get(q + [p], other) == Get(q, other)
  {
    if q != [] {
      assert (q + [p])[1..] == q[1..] + [p];
      AppendKeepsOthers(q[1..], p, other);
    }
  }

  /** Deleting a name after setting it gives the same list as deleting it outright. */
  lemma {:induction false} DeleteAfterSet(q: Query, name: string, value: string)
    ensures Delete(Set(q, name, value), name) == Delete(q, name)
  {
    if Has(q, name) {
      DeleteAfterReplaceFirst(q, name, value);
    } else {
      DeleteAppended(q, Param(name, value));
    }
  }

  lemma {:induction false} DeleteAfterReplaceFirst(q: Query, name: string, value: string)
    requires Has(q, name)
    ensures Delete(ReplaceFirst(q, name, value), name) == Delete(q, name)
  {
    if q[0].name == name {
      DeleteIdempotent(q[1..], name);
      assert ReplaceFirst(q, name, value)[1..] == Delete(q[1..], name);
    } else {
      assert Has(q[1..], name) by {
        var i :| 0 <= i < |q| && q[i].name == name;
        assert q[1..][i - 1] == q[i];
      }
      DeleteAfterReplaceFirst(q[1..], name, value);
      assert ReplaceFirst(q, name, value)[1..] == ReplaceFirst(q[1..], name, value);
    }
  }

  lemma DeleteIdempotent(q: Query, name: string)
    ensures Delete(Delete(q, name), name) == Delete(q, name)
  {
  }

  lemma {:induction false} DeleteAppended(q: Query, p: Param)
    ensures Delete(q + [p], p.name) == Delete(q, p.name)
  {
    if q != [] {
      assert (q + [p])[1..] == q[1..] + [p];
      DeleteAppended(q[1..], p);
    }
  }

  /** The `name=value` text of one pair, without percent-encoding. */
  function PairText(p: Param): string {
    p.name + "=" + p.value
  }

  function PairTexts(q: Query): (r: seq<string>)
    ensures |r| == |q|
    ensures forall i :: 0 <= i < |q| ==> r[i] == PairText(q[i])
  {
    if q == [] then [] else [PairText(q[0])] + PairTexts(q[1..])
  }

  /** `toString()` without percent-encoding: the pairs' texts joined by `&`. */
  function Serialize(q: Query): string {
    Join(PairTexts(q), "&")
  }

  /** The pairs whose text the parser reads back unchanged. */
  predicate Serializable(q: Query) {
    forall i :: 0 <= i < |q| ==> '=' !in q[i].name && '&' !in q[i].name && '&' !in q[i].value
  }

  /** One `name=value` piece, split at its first `=`; no `=` gives an empty value. */
  function ParsePair(piece: string): (r: Param)
    ensures '=' !in r.name
    ensures '=' in piece ==> r.name + "=" + r.value == piece
    ensures '=' !in piece ==> r == Param(piece, "")
  {
    if '=' in piece then
      var i := IndexOf(piece, '=');
      assert piece == piece[..i] + "=" + piece[i + 1..];
      Param(piece[..i], piece[i + 1..])
    else Param(piece, "")
  }

  function ParsePieces(pieces: seq<string>): (r: Query)
    ensures |r| <= |pieces|
  {
    if pieces == [] then []
    else if pieces[0] == "" then ParsePieces(pieces[1..])
    else [ParsePair(pieces[0])] + ParsePieces(pieces[1..])
  }

  /**
   * The `URLSearchParams(init)` constructor on a string: one leading `?` is
   * stripped, the rest is split on `&`, empty pieces are skipped.
   */
  function Parse(s: string): (r: Query)
    ensures forall i :: 0 <= i < |r| ==> '&' !in r[i].name && '&' !in r[i].value
  {
    var body := if StartsWith(s, "?") then s[1..] else s;
    var pieces := SplitOn(body, '&');
    ParsePiecesNoAmp(pieces);
    ParsePieces(pieces)
  }

  lemma {:induction false} ParsePiecesNoAmp(pieces: seq<string>)
    requires forall i :: 0 <= i < |pieces| ==> '&' !in pieces[i]
    ensures forall i :: 0 <= i < |ParsePieces(pieces)| ==>
              '&' !in ParsePieces(pieces)[i].name && '&' !in ParsePieces(pieces)[i].value
  {
    if pieces != [] {
      var rest := ParsePieces(pieces[1..]);
      ParsePiecesNoAmp(pieces[1..]);
      if pieces[0] != "" {
        var p := ParsePair(pieces[0]);
        if '=' in pieces[0] {
          PartsOfPair(p.name, p.value, '&');
        }
        assert ParsePieces(pieces) == [p] + rest;
      }
    }
  }

  /** A character missing from `name=value` is missing from both of its parts. */
  lemma PartsOfPair(name: string, value: string, c: char)
    requires c !in name + "=" + value
    ensures c !in name && c !in value
  {
    var piece := name + "=" + value;
    assert forall k :: 0 <= k < |name| ==> name[k] == piece[k];
    assert forall k :: 0 <= k < |value| ==> value[k] == piece[|name| + 1 + k];
  }

  /** A single `name=value` body, with or without the leading `?`, parses to that one pair. */
  lemma ParseSinglePair(name: string, value: string)
    requires '=' !in name && '&' !in name && '&' !in value
    ensures Parse("?" + name + "=" + value) == [Param(name, value)]
    ensures !StartsWith(name, "?") ==> Parse(name + "=" + value) == [Param(name, value)]
  {
    MarkedPair(name, value);
    if !StartsWith(name, "?") {
      BarePair(name, value);
    }
  }

  lemma MarkedPair(name: string, value: string)
    requires '=' !in name && '&' !in name && '&' !in value
    ensures Parse("?" + name + "=" + value) == [Param(name, value)]
  {
    SerializeOne(name, value);
    ParseSerialize([Param(name, value)]);
    Regroup("?", name + "=", value);
    Regroup("?", name, "=");
  }

  lemma BarePair(name: string, value: string)
    requires '=' !in name && '&' !in name && '&' !in value
    requires !StartsWith(name, "?")
    ensures Parse(name + "=" + value) == [Param(name, value)]
  {
    var piece := name + "=" + value;
    assert !StartsWith(piece, "?") by {
      if |name| == 0 { assert piece[0] == '='; } else { assert piece[0] == name[0]; }
    }
    SerializeOne(name, value);
    ParseSerialize([Param(name, value)]);
    MarkIsOptional(piece);
  }

  /** Concatenation regroups; stated apart so no parse is in scope. */
  lemma Regroup<T>(a: seq<T>, b: seq<T>, c: seq<T>)
    ensures a + b + c == a + (b + c)
  {
  }

  /** A one-parameter query serializes to its single `name=value` text. */
  lemma SerializeOne(name: string, value: string)
    ensures Serialize([Param(name, value)]) == name + "=" + value
  {
    assert PairTexts([Param(name, value)]) == [name + "=" + value];
  }

  /** A leading `?` is stripped once, so a text not starting with `?` parses as if it had one. */
  lemma MarkIsOptional(s: string)
    requires !StartsWith(s, "?")
    ensures Parse(s) == Parse("?" + s)
  {
    assert ("?" + s)[..1] == "?";
    assert ("?" + s)[1..] == s;
  }

  lemma ParseOnePiece(piece: string)
    requires piece != ""
    ensures ParsePieces([piece]) == [ParsePair(piece)]
  {
    assert [piece][1..] == [];
  }

  lemma NoAmpInPair(name: string, value: string)
    requires '&' !in name && '&' !in value
    ensures '&' !in name + "=" + value
  {
    var piece := name + "=" + value;
    forall k | 0 <= k < |piece| ensures piece[k] != '&' {
      if k < |name| { assert piece[k] == name[k]; }
      else if k > |name| { assert piece[k] == value[k - |name| - 1]; }
    }
  }

  lemma ParsePairSplitsAtFirstEquals(name: string, value: string)
    requires '=' !in name
    ensures ParsePair(name + "=" + value) == Param(name, value)
  {
    var piece := name + "=" + value;
    assert piece[|name|] == '=';
    var i := IndexOf(piece, '=');
    assert i == |name| by {
      assert forall k :: 0 <= k < |name| ==> piece[k] == name[k];
    }
    assert piece[..i] == name;
    assert piece[i + 1..] == value;
  }

  /** Parsing `?` followed by a serialised list gives the list back. */
  lemma ParseSerialize(q: Query)
    requires Serializable(q)
    ensures Parse("?" + Serialize(q)) == q
  {
    assert ("?" + Serialize(q))[1..] == Serialize(q);
    if q == [] {
      assert SplitOn("", '&') == [""];
      assert ParsePieces([""]) == ParsePieces([""][1..]);
    } else {
      var texts := PairTexts(q);
      forall i | 0 <= i < |texts| ensures '&' !in texts[i] {
        NoAmpInPair(q[i].name, q[i].value);
      }
      SplitJoin(texts, '&');
      ParsePairTexts(q);
    }
  }

  lemma {:induction false} ParsePairTexts(q: Query)
    requires Serializable(q)
    ensures ParsePieces(PairTexts(q)) == q
  {
    if q != [] {
      var texts := PairTexts(q);
      assert texts[0] == q[0].name + "=" + q[0].value;
      assert texts[0][|q[0].name|] == '=';
      ParsePairSplitsAtFirstEquals(q[0].name, q[0].value);
      assert texts[1..] == PairTexts(q[1..]);
      ParsePairTexts(q[1..]);
    }
  }
}

=== FILE: wrappers.dfy ===
/** Optional values: the model's stand-in for JavaScript's `null` / `undefined`. */
module Wrappers {

  datatype Option<+T> = None | Some(value: T) {

    /** Returns the value held in Some, or `default` for None. */
    function GetOr(default: T): T {
      match this
      case Some(v) => v
      case None => default
    }
  }

  /** A property read `m[k]`: `None` stands for the `undefined` of a missing key. */
  function Lookup<K, V>(m: map<K, V>, k: K): (r: Option<V>)
    ensures r.Some? <==> k in m
    ensures r.Some? ==> r.value == m[k]
  {
    if k in m then Some(m[k]) else None
  }

  /** JavaScript truthiness of an optional string: present and not `""`. */
  predicate Truthy(s: Option<string>) {
    s.Some? && s.value != ""
  }
}
